=== FILE: README.md ===
# nodeca core — a Dafny model

This project models five small pieces of the nodeca forum engine and proves
what they promise:

- **Settings resolver** (`lib/settings/settings.js`):
  - stores register the setting keys they know;
  - `get` asks every owning store for exactly the requested keys and merges each key's raw values into one boolean, where a forced value beats a regular one and a forced `false` beats everything;
  - `set` hands new values to one named store.
- **View renderer** (`shared/common/render.js`): a view is rendered, then wrapped in its layouts. The layout stack is derived from a dotted layout path, and the least specific layout is outermost.
- **Session address binding** (`lib/autoload/hooks/server_chain/check_session_ip.js`): a session bound to a client address is refused when the request comes from another /24 network. Every surviving session is then bound to the request's address.
- **Asset loader** (`assets/js/loader.js`): a counter of outstanding downloads. It calls back once `wait` has been called and the count reaches zero.
- **Editor toolbar** (`client/mdedit/mdedit.js`):
  - a named toolbar configuration is compiled into buttons, stably sorted by priority;
  - buttons of disabled parser plugins are dropped, together with stray separators;
  - hotkeys are bound for buttons whose command is registered.

Modules, one per file:

| file | module | what |
|---|---|---|
| wrappers.dfy | Wrappers | `Option`, `Result` |
| strings.dfy | Strings | `String#split` / `Array#join` on one character, and their round trip |
| settings_merge.dfy | SettingsMerge | `mergeValues` |
| settings_registry.dfy | SettingsRegistry | `addStore`, `getStore`, `getStoresForKey` |
| settings_resolver.dfy | SettingsResolver | `get`, `set` |
| render.dfy | Render | `getLayoutStack`, `prepare`, `render` |
| session_ip.dfy | SessionIp | `check_session_ip`, `set_session_ip` |
| loader.dfy | Loader | `DefferedAssets`, `nodeca.runtime.load` |
| toolbar.dfy | Toolbar | `compileToolbarConfig`, `__initToolbar__` |

Modelling choices:

- **Values and stores.**
  - A setting value is a boolean. A store's raw answer for a key is `None` (no value) or a `Contribution(value, force)`.
  - A store's own `get` is a parameter of type `Ask`: a function from store name and keys to either a key-to-entry map or an error string. The `params` and `options` of the call are bound inside it.
  - `async.forEach` is modelled as a sequential fold in the order stores were first met, so the error reported is that of the first failing store in that order.
- **Views.** The views tree is flattened into two maps, one for views and one for layouts, each from a dotted path to a renderer function.
- **Loader.** The loader's callback is observed as the number of times it has run.

## Model

| member | source | states |
|---|---|---|
| Strings.Split | shared/common/render.js:21 | `split('.')` gives one more piece than there are dots. No piece contains a dot, and joining the pieces with dots gives back the string. |
| Strings.SplitJoin | lib/autoload/hooks/server_chain/check_session_ip.js:28-29 | Splitting undoes joining when no piece contains the separator. |
| Strings.JoinInjective | lib/autoload/hooks/server_chain/check_session_ip.js:31-32 | Two non-empty lists of dot-free pieces join to the same string exactly when they are equal, so comparing joined octets compares the octets. |
| SettingsMerge.ScanAll | lib/settings/settings.js:237-253 | The downward loop's four flags mean the following: some value is present; some value is forced; no forced value is `false`; some regular value is `true`. |
| SettingsMerge.MergeValues | lib/settings/settings.js:230-263 | `null` exactly when no value is present. Otherwise the result is forced iff some value is forced. A forced result is `true` iff no forced value is `false`; a regular result is `true` iff some regular value is `true`. |
| SettingsMerge.MergeRules | lib/settings/settings.js:233-235 | The same rules stated over indices: all entries absent; some forced entry; forced `false` wins; any regular `true` wins otherwise. |
| SettingsMerge.ForcedFalseWins | lib/settings/settings.js:234-235 | A single forced `false` anywhere makes the merge a forced `false`, whatever else is present. |
| SettingsMerge.RegularIgnoredWhenForced | lib/settings/settings.js:233 | Once some value is forced, adding regular values changes nothing. |
| SettingsMerge.MergePermutation | lib/settings/settings.js:242-253 | The merge does not depend on the order of the stores' answers. |
| SettingsMerge.MergeSameElements | lib/settings/settings.js:242-253 | The merge depends only on which entries occur, not on how often. |
| SettingsMerge.MergeExamples | lib/settings/settings.js:259-262 | Worked merges: regular `true` with forced `false`; two forced values; two regular values; nothing present. |
| SettingsRegistry.GetStore | lib/settings/settings.js:85-87 | A name has a store iff it is registered, and the store returned is the one registered under it. In a valid registry it carries that name. |
| SettingsRegistry.GetStoresForKey | lib/settings/settings.js:96-98 | An unknown key has no stores. A known key gives its index list. |
| SettingsRegistry.StoresForKeyOwn | lib/settings/settings.js:96-98 | In a valid registry, every store listed for a key is the registered store of its name and declares the key, and every store declaring the key is listed. |
| SettingsRegistry.IndexKeys | lib/settings/settings.js:59-65 | Each declared key's store list gains the store once per declaration. Other keys' lists are unchanged. |
| SettingsRegistry.AddStore | lib/settings/settings.js:46-69 | A taken name is a "duplicate store" error and leaves the registry unchanged. Otherwise the stores map gains exactly the new store under its name, and each key's store list gains the store once per declaration of that key. |
| SettingsRegistry.AddStoreThenGetStore | lib/settings/settings.js:85-87 | After a successful `addStore`, `getStore(name)` returns the new store and every other name still returns what it did. |
| SettingsRegistry.AddStoreAppends | lib/settings/settings.js:96-98 | For a store with distinct keys, `getStoresForKey` of each of its keys gains exactly that store at the end. Other keys are unchanged. |
| SettingsRegistry.AddStorePreservesValid | lib/settings/settings.js:46-69 | The registry invariant survives `addStore`: names match, the index lists only registered stores under keys they declare, every declared key is indexed, and no list is empty. |
| SettingsRegistry.AddStorePreservesDistinct | lib/settings/settings.js:58-65 | No store appears twice under one key when every store declares distinct keys. |
| SettingsResolver.LastUnknownKey | lib/settings/settings.js:131-150 | No key is reported exactly when every requested key has a store. Otherwise the reported key is the last unknown one. |
| SettingsResolver.PlanFor | lib/settings/settings.js:131-146 | The `store_keys` object: store `m` is asked for key `k` iff `k` is requested and a store named `m` declares it. |
| SettingsResolver.AddAsk | lib/settings/settings.js:139-143 | The named store's ask list gains the key at its end, created on first use. Every other store's list is unchanged, and a new store joins the call order last. |
| SettingsResolver.AskStores | lib/settings/settings.js:138-144 | Each owning store's list gains the key once per registration under that name. |
| SettingsResolver.QueriesOf | lib/settings/settings.js:152-153 | One call per store of the plan, in the order the stores were first met. Each call asks for that store's planned keys. |
| SettingsResolver.PlanQueries | lib/settings/settings.js:152-153 | The stores called are distinct. Each is asked only for requested keys it owns, and every owner of a requested key is called with it. |
| SettingsResolver.AsksInRequestOrder | lib/settings/settings.js:131-146 | In a valid registry, each store is asked for exactly its requested keys, in request order, once each. |
| SettingsResolver.Gather | lib/settings/settings.js:152-174 | The gathering fails iff some store call fails. Its error is that store's error. |
| SettingsResolver.Collect | lib/settings/settings.js:159-165 | Each key a store returned gets that store's value appended to its list. Every other key's list is unchanged. |
| SettingsResolver.GatherContents | lib/settings/settings.js:158-165 | On success, a key has raw values iff some store returned it. Those values are exactly what the stores returned for it. |
| SettingsResolver.MergedValues | lib/settings/settings.js:180-182 | When no merge is `null`, each gathered key maps to the value of its merge, and no other key appears. |
| SettingsResolver.Finish | lib/settings/settings.js:175-195 | Fails iff some key's merge is `null`, naming all such keys. Otherwise a single key gives the scalar of its merged value (nothing if no store returned the key), and a batch gives a map from each key to its merged value. |
| SettingsResolver.Get | lib/settings/settings.js:118-197 | An unknown key fails before any store is called, naming the last unknown key. Otherwise the calls are exactly those of the plan: one per owning store, in the order the stores were first met, each with that store's keys. If some call fails, `get` fails with a store error taken from a failing call. If none fails, the answer is the final merge of everything the stores returned. A single key gives a scalar. |
| SettingsResolver.GetResolvesEachKey | lib/settings/settings.js:108-110 | With stores that answer, `get` gives for each key the merge of the values of every store owning it. That is the promised "aggregated value from all stores associated with it". |
| SettingsResolver.BatchAgreesWithSingle | lib/settings/settings.js:195 | A key's value in a batch result equals the result of asking for that key alone. |
| SettingsResolver.FinishAsWritten | lib/settings/settings.js:181-193 | As written, the callback throws exactly when some key's merge is `null`, so the `errors` branch never reports anything. |
| SettingsResolver.UnresolvedKeyThrowsAsWritten | lib/settings/settings.js:182 | The code as written and the corrected finish differ exactly on unresolved keys. For `x: [null]` the first throws and the second reports `x`. |
| SettingsResolver.Set | lib/settings/settings.js:210-219 | An unknown store name is an "unknown store" error. Otherwise the named store receives the values and params unchanged. |
| SettingsResolver.SetAfterAddStore | lib/settings/settings.js:200-208 | `set` on a freshly added store delegates to it. |
| SettingsResolver.ScenarioIndex | lib/settings/settings.js:59-65 | Adding store `a` and then store `b`, both declaring `x` and `y`, indexes `a` then `b` under each of the two keys and nothing under `z`. |
| SettingsResolver.ScenarioForcedRevocation | lib/settings/settings.js:234-235 | With a regular `true` from one store and a forced `false` from another, `get` answers `false`. |
| SettingsResolver.ScenarioAbsentIgnored | lib/settings/settings.js:243 | A store with no value for the key does not affect the answer. |
| SettingsResolver.ScenarioBatch | lib/settings/settings.js:195 | A batch of both scenario keys gives the map of both answers. |
| SettingsResolver.ScenarioUnknownKey | lib/settings/settings.js:134-150 | A batch with an unknown key fails with that key and calls no store. |
| SettingsResolver.ScenarioEndToEnd | lib/settings/settings.js:46-69 | On the registry built by those two `addStore` calls, `get` answers `false` for `x` and `true` for `y`. |
| Render.Cumulate | shared/common/render.js:23-25 | The loop leaves entries before its start alone. Each later entry is the previous one, a dot, and the original piece. |
| Render.GetLayoutStack | shared/common/render.js:20-28 | One entry per dotted segment. The first is the first segment, each next one is the previous plus a dot plus the next segment, and the last is the whole path. |
| Render.StackJoins | shared/common/render.js:23-25 | Entry `j` of the stack is the first `j + 1` segments joined with dots. |
| Render.StackPrefixes | shared/common/render.js:103-110 | Each stack entry is a prefix of every later one and of the full path. |
| Render.LayoutStackOfThree | shared/common/render.js:109 | `foo.bar.baz` stacks as `foo`, `foo.bar`, `foo.bar.baz` (for any three dot-free segments). |
| Render.Apply | shared/common/render.js:45-53 | A path with no layout function leaves the HTML alone. Otherwise the layout renders `data` with `content` set to the HTML so far. |
| Render.ApplyIgnoresContent | shared/common/render.js:52-53 | A layout's output does not depend on the `content` the caller's `data` held before. |
| Render.WrapReversedIsNest | shared/common/render.js:44-54 | Applying the layouts from the most specific to the least builds the nesting in which the least specific layout is outermost. |
| Render.Prepare | shared/common/render.js:32-38 | A missing view is a "view not found" error. Otherwise the renderer captures the view, the layouts and the layout stack. |
| Render.Run | shared/common/render.js:39-58 | A call of the corrected renderer nests the view in the stack's layouts, least specific outermost. Each call gives the same nesting. |
| Render.RenderView | shared/common/render.js:79-81 | `render` fails iff the view is missing. Otherwise its result is the view's HTML nested in the layouts, least specific outermost. |
| Render.RunAsWritten | shared/common/render.js:39-58 | As written, a call nests the layouts correctly, but it leaves the captured `layout` holding the reversed stack. |
| Render.SecondCallReversed | shared/common/render.js:43-44 | The second call of the same renderer as written nests the layouts most specific outermost. The third call flips the order back. |
| Render.SecondCallExample | shared/common/render.js:93-98 | With tagging layouts `A` at a path and `B` at a child of it, the first call gives `A(B(v))` and the second `B(A(v))`. |
| Render.RenderWithoutLayout | shared/common/render.js:42 | Without a layout, or with the empty string, the result is the view's own HTML. |
| Render.MissingLayoutSkipped | shared/common/render.js:47-50 | A layout path with no layout function is skipped, as if it were absent from the stack. |
| Render.RenderTwoLevels | shared/common/render.js:93-98 | View `blogs.post.show` with layout `default.blogs` renders the view, then `default.blogs` around it, then `default` around that. This holds for any two-segment layout. |
| SessionIp.Octets | lib/autoload/hooks/server_chain/check_session_ip.js:13-29 | The compared octets are the first three pieces of the address split at dots, or all of them when there are fewer (so `localhost` or `::1` is one piece, compared whole). None contains a dot. |
| SessionIp.MaskedEqualIffOctetsEqual | lib/autoload/hooks/server_chain/check_session_ip.js:28-32 | Comparing the re-joined strings is comparing the first three octets. |
| SessionIp.CheckSessionIp | lib/autoload/hooks/server_chain/check_session_ip.js:17-39 | The session is either kept unchanged or refused. It is refused iff there is no session, or the session has an address whose first three octets differ from the request's. |
| SessionIp.SetSessionIp | lib/autoload/hooks/server_chain/check_session_ip.js:42-48 | A session, if any, is bound to the request address and otherwise unchanged. No session stays no session. |
| SessionIp.FourthOctetIgnored | lib/autoload/hooks/server_chain/check_session_ip.js:1-2 | Addresses differing only after the third octet compare equal (mask 255.255.255.0). |
| SessionIp.OctetsOfDotted | lib/autoload/hooks/server_chain/check_session_ip.js:28-29 | The compared octets of `a.b.c.rest` are `a`, `b` and `c`. |
| SessionIp.DifferentNetworkRefused | lib/autoload/hooks/server_chain/check_session_ip.js:37-38 | A different third octet refuses the session. |
| SessionIp.DotlessComparedWhole | lib/autoload/hooks/server_chain/check_session_ip.js:4 | Dotless addresses (IPv6) match only when equal. |
| SessionIp.BoundSessionSurvives | lib/autoload/hooks/server_chain/check_session_ip.js:28-35 | After the chain, the next request from the same /24 network keeps the session. |
| SessionIp.ChainBindsAndSettles | lib/autoload/hooks/server_chain/check_session_ip.js:42-48 | After both hooks a surviving session carries the request's address, and a second pass changes nothing. |
| SessionIp.UnboundSessionAdopted | lib/autoload/hooks/server_chain/check_session_ip.js:22-26 | A session without an address is never refused. It is bound instead. |
| Loader.Done | assets/js/loader.js:34-38 | The callback runs, once, exactly when the tracker is waiting and nothing is outstanding. The count and the waiting flag are unchanged, and the number of runs never falls. |
| Loader.Step | assets/js/loader.js:23-43 | `listen` raises the count by one and a completion lowers it by one. `wait` sets the waiting flag for good. The number of runs never falls and rises by at most one per call. It rises exactly when a completion or `wait` leaves the tracker waiting with nothing outstanding. |
| Loader.RunCounts | assets/js/loader.js:23-43 | The outstanding count is the number of `listen` calls minus the number of completions. The tracker waits iff `wait` was called. |
| Loader.NothingFiresBeforeWait | assets/js/loader.js:34-38 | The callback never runs before `wait`, whatever completes. |
| Loader.FiresOnLastCompletion | assets/js/loader.js:28-31 | When waiting with `q` outstanding, `k <= q` completions run the callback once exactly when `k = q`, and not before. |
| Loader.WaitTwiceFiresTwice | assets/js/loader.js:40-43 | Nothing guards the callback: a second `wait` with nothing outstanding runs it again. |
| Loader.ExtraCompletionNeverFires | assets/js/loader.js:28-31 | While waiting with nothing outstanding, one more completion drives the count below zero and does not run the callback. |
| Loader.RequestFor | assets/js/loader.js:51-55 | A `css` asset with a non-empty media query is injected with that media. Anything else is loaded by `yepnope`. Either way the link is kept. |
| Loader.StartFrom | assets/js/loader.js:50-56 | The loop issues one request per remaining asset in order. The count goes up by one per asset. |
| Loader.Load | assets/js/loader.js:46-59 | One request per asset, in order, each exactly the one the asset calls for: `injectCss` with the asset's media for a `css` asset with a media query, `yepnope` otherwise. Afterwards the tracker waits on exactly that many downloads and has already called back iff there were none. |
| Loader.LoadCallsBackOnce | assets/js/loader.js:46-59 | After `k` of `n` downloads complete, the callback has run once iff `k = n`. |
| Toolbar.ButtonName | client/mdedit/mdedit.js:24 | Keys starting with `separator`, and only they, name the declared `separator` button. Every other key names itself. |
| Toolbar.Defaults | client/mdedit/mdedit.js:29 | Each field of the override is used when given. The declared button fills the rest. |
| Toolbar.Collect | client/mdedit/mdedit.js:19-32 | Fails iff an entry that is switched on names an undeclared button. Otherwise it gives one button per entry that is switched on. |
| Toolbar.CollectContents | client/mdedit/mdedit.js:20-30 | Button `i` is the `i`-th switched-on entry: the declared button for `true`, or the override over it for an object. |
| Toolbar.Insert | client/mdedit/mdedit.js:33-35 | Insertion into a list sorted by priority keeps it sorted, and adds exactly the one button. |
| Toolbar.InsertStable | client/mdedit/mdedit.js:33-35 | The inserted button goes first among its own priority. The order within each priority is otherwise unchanged. |
| Toolbar.SortByPriority | client/mdedit/mdedit.js:33-35 | The result is sorted by priority and is a permutation of the input. |
| Toolbar.SortStable | client/mdedit/mdedit.js:33-35 | For every priority, the buttons having it keep their configured order. |
| Toolbar.CompileToolbarConfig | client/mdedit/mdedit.js:16-36 | An unknown toolbar has no buttons. Otherwise the result is the collected buttons, sorted by priority and otherwise the same multiset. |
| Toolbar.KeepEnabled | client/mdedit/mdedit.js:295-310 | The result is the toolbar without the buttons of disabled plugins, with each run of consecutive separators cut to its first. Hence no two separators in a row, the non-separators are exactly the enabled buttons in order, and every kept button is from the toolbar and not disabled. |
| Toolbar.Trim | client/mdedit/mdedit.js:312-320 | Given no adjacent separators, the result is the input less at most one leading and at most one trailing separator. It has no separator at either end and the same non-separators. |
| Toolbar.ShownButtons | client/mdedit/mdedit.js:295-320 | The shown buttons are the toolbar without disabled buttons and with separator runs cut to one, less at most one separator at each end. So there is no separator at an end or twice in a row, the non-separators are exactly the enabled ones in order, and a toolbar of only separators shows nothing. |
| Toolbar.SeparatorBetweenShown | client/mdedit/mdedit.js:302-309 | A separator between two shown buttons is shown: `[a, separator, a]` stays as it is. |
| Toolbar.HiddenButtonMergesSeparators | client/mdedit/mdedit.js:297-305 | A hidden button between two separators leaves one separator: `[a, separator, x, separator, a]` with `x` disabled shows `[a, separator, a]`. |
| Toolbar.Hotkeys | client/mdedit/mdedit.js:327-340 | A key is bound iff some button with a registered command lists it. It runs the command of the last such button. |
| Toolbar.HotkeysStepKeys | client/mdedit/mdedit.js:333-337 | After one more button, a key is bound iff that button or an earlier one with a registered command lists it. |
| Toolbar.HotkeysStepValues | client/mdedit/mdedit.js:333-337 | After one more button, its keys run its command and every other key keeps the command of the last earlier button binding it. |
| Toolbar.InitToolbar | client/mdedit/mdedit.js:290-344 | The buttons shown are the filtered ones. A key gets a hotkey iff some shown button with a registered command lists it, and it runs the command of the last such button. |

## Left out

- Store internals are not part of this model: the `Store` class, `createStore`, a store's own `get`/`set`, schemas and caching. A store's `get` is the `Ask` parameter and `set` is returned as a `Delegation`.
- SettingsRegistry.AddStore: store objects are modelled as values, so registering one store object under two names is not covered. In the source, `addStore` stamps the name on the caller's object (settings.js:55). Adding one object as `a` and then as `b` makes `getStore('a').name` be `b`, lists the object twice under each of its keys, and makes `get` call `b` once with each key twice. The model keeps `Store("a", keys)` under `a` and plans two separate calls, and `Valid` (each store carries its own name) assumes distinct objects.
- The `instanceof Store` check of `addStore` is not modelled: the model's types admit only stores.
- Only boolean setting values are modelled; non-boolean scalar values are left out. A contribution whose value is `null` would make the merge non-null but valueless, which is the one way the `errors` branch of `get` can report; the model does not cover it.
- Object-prototype names as store names or keys are left out. `__stores__` and `__keys__` are plain objects, so `addStore('constructor', …)` throws "Duplicate store name", a store declaring `toString` makes the key index's `push` throw, and `get('hasOwnProperty')` throws instead of reporting an unknown key. The model's maps have no inherited entries.
- Error messages are modelled as constructors (`DuplicateStore`, `UnknownKey`, `StoreFailed`, `Unresolved`, `UnknownStore`). The unresolved keys are a set rather than a comma-joined string.
- Concurrency: `async.forEach` is a sequential fold. When several stores fail, the model reports the first in call order, whereas the source reports whichever fails first in time.
- The copies that `getStoresForKey` and `prepare` make of arrays hold by construction: all values are immutable.
- `_.memoize` in `compileToolbarConfig`: the function is pure, so caching does not change its results.
- `nodeca.shared.common.getByPath` and the views tree are flattened into maps from dotted path to renderer. The logged warning for a missing layout is dropped.
- The rendering functions are opaque: a renderer is any function from data to a string. A view or layout that mutates `data` is not modelled.
- Render.Apply: the source's renderer writes each intermediate HTML into `data.content` of the caller's object (render.js:52). Afterwards the caller's `data.content` holds the HTML handed to the last layout, and calling a renderer again with the same object starts from that content. The model passes `Data` by value, so this side effect is not modelled.
- The DOM, CodeMirror, `$toolbar.html(...)` and the `N.runtime.render` call are left out. So are the rest of the editor widget (attachments, preview, resizing) and the `extraKeys` closures, which are modelled as the command name they run.
- Toolbar.Collect: a switched-on entry naming an undeclared button is an error. In the source, `true` pushes `undefined`, which crashes later, and an override object becomes a button of its overrides alone.
- Toolbar.Disabled: a button with no `depend` is never disabled. The source would look up the key `"undefined"`.
- Toolbar.SortByPriority: priorities are integers. A missing priority makes the source's comparator return `NaN`, which is not modelled.
- Toolbar.SortStable: stability assumes an engine whose `Array#sort` is stable (required since ECMAScript 2019). Older V8 sorted arrays of more than 10 elements unstably.
- Loader: `yepnope`, `Modernizr` and the actual downloads are left out. A request records only its link and media; the completion function handed over is the tracker's `Complete` event.
- Loader: the callback defaulting to `noop` is not modelled separately. The count of runs is the same either way.
- SessionIp: `env.request.ip` is taken as a string and the session's other fields as an opaque map. A session whose `ip` field exists but is `null` or `undefined` passes `_.has` and makes `.split` throw; the model's `Option<string>` has no such value. The priorities -75 and -65 are modelled only as the order of `Chain`.
- The other files in the repository are not part of this model: the CLI, migrations, the client init and history code, the I/O layer, mail and Redis, the vendor bundle and the parser tests.

## Findings

| source | as written | input that shows it | evidently intended | confidence | as-written member | corrected member |
|---|---|---|---|---|---|---|
| lib/settings/settings.js:182 | `results[key] = self.mergeValues(values).value` reads `.value` off a merge that is `null` when no store has a value for the key. It throws a TypeError, so for boolean setting values the `errors` branch at lines 184-192 never reports. | `get('x', …)` where every store owning `x` answers with no value (`x: [null]`) | report "Failed get values for settings: x" through the callback | high; not executed | SettingsResolver.FinishAsWritten, SettingsResolver.UnresolvedKeyThrowsAsWritten | SettingsResolver.Finish |
| shared/common/render.js:43-44 | The prepared renderer assigns the layout stack back to the captured `layout` and then reverses that array in place. The next call therefore starts from the reversed stack and applies the layouts least specific first. | `f = prepare(views, 'v', 'a.b'); f(d); f(d)`: the first call gives `A(B(v))`, the second `B(A(v))` | every call nests the least specific layout outermost, as the `prepare` documentation says | high; not executed | Render.RunAsWritten, Render.SecondCallReversed, Render.SecondCallExample | Render.Run |

=== FILE: loader.dfy ===
/** The asset loader of assets/js/loader.js: `DefferedAssets` counts the
    outstanding downloads and calls back once it has been told to wait and
    the count is zero; `nodeca.runtime.load` starts one download per asset
    and then waits. The callback is observed as the number of times it was
    called. */
module Loader {

  /** A `DefferedAssets` object: the outstanding count, whether `wait` has
      been called, and how many times the callback has run. */
  datatype Tracker = Tracker(queue: int, waiting: bool, fired: nat)

  /** The calls a tracker receives: `listen()`, a call of a completion
      function `listen()` returned, and `wait()`. */
  datatype Event = Listen | Complete | Wait

  const Fresh := Tracker(0, false, 0)

  /** `done()`: run the callback when waiting and nothing is outstanding. */
  function Done(t: Tracker): (r: Tracker)
    ensures r.queue == t.queue && r.waiting == t.waiting
    ensures r.fired > t.fired <==> t.waiting && t.queue == 0
    ensures t.fired <= r.fired <= t.fired + 1
  {
    if t.waiting && t.queue == 0 then t.(fired := t.fired + 1) else t
  }

  /** One call on the tracker: `listen()` adds an outstanding download, a
      completion removes one, and both a completion and `wait()` then try
      `done()`. */
  function Step(t: Tracker, e: Event): (r: Tracker)
    ensures r.queue == t.queue + (if e == Listen then 1 else if e == Complete then -1 else 0)
    ensures r.waiting <==> t.waiting || e == Wait
    ensures r.fired > t.fired <==> e != Listen && r.waiting && r.queue == 0
    ensures t.fired <= r.fired <= t.fired + 1
  {
    match e
    case Listen => t.(queue := t.queue + 1)
    case Complete => Done(t.(queue := t.queue - 1))
    case Wait => Done(t.(waiting := true))
  }

  function Run(t: Tracker, events: seq<Event>): Tracker
    decreases |events|
  {
    if |events| == 0 then t else Run(Step(t, events[0]), events[1..])
  }

  /** How many of `events` are `e`. */
  function Count(events: seq<Event>, e: Event): (n: nat)
    ensures n == multiset(events)[e]
  {
    if |events| == 0 then 0
    else
      assert events == [events[0]] + events[1..];
      (if events[0] == e then 1 else 0) + Count(events[1..], e)
  }

  /** The outstanding count is the listens minus the completions, and the
      tracker waits once `wait` has been called. */
  lemma {:induction false} RunCounts(t: Tracker, events: seq<Event>)
    ensures Run(t, events).queue == t.queue + Count(events, Listen) - Count(events, Complete)
    ensures Run(t, events).waiting <==> t.waiting || Wait in events
    ensures Run(t, events).fired >= t.fired
    decreases |events|
  {
    if |events| > 0 {
      RunCounts(Step(t, events[0]), events[1..]);
      assert events == [events[0]] + events[1..];
    }
  }

  /** The callback never runs before `wait()`, however the downloads go. */
  lemma {:induction false} NothingFiresBeforeWait(t: Tracker, events: seq<Event>)
    requires !t.waiting && Wait !in events
    ensures Run(t, events).fired == t.fired && !Run(t, events).waiting
    decreases |events|
  {
    if |events| > 0 {
      NothingFiresBeforeWait(Step(t, events[0]), events[1..]);
    }
  }

  function Completions(k: nat): (events: seq<Event>)
    ensures |events| == k && forall i :: 0 <= i < k ==> events[i] == Complete
  {
    if k == 0 then [] else [Complete] + Completions(k - 1)
  }

  /** Once waiting with `q` downloads outstanding, the callback runs exactly
      when the `q`-th of them completes, and not before. */
  lemma {:induction false} FiresOnLastCompletion(t: Tracker, k: nat)
    requires t.waiting && k <= t.queue
    ensures Run(t, Completions(k)).queue == t.queue - k
    ensures Run(t, Completions(k)).fired == t.fired + (if k > 0 && k == t.queue then 1 else 0)
    ensures Run(t, Completions(k)).waiting
    decreases k
  {
    if k > 0 {
      var next := Step(t, Complete);
      assert Completions(k)[1..] == Completions(k - 1);
      FiresOnLastCompletion(next, k - 1);
    }
  }

  /** A second `wait()` with nothing outstanding runs the callback again:
      nothing guards against repeated calls. */
  lemma WaitTwiceFiresTwice()
    ensures Run(Fresh, [Wait, Wait]).fired == 2
  {
    assert [Wait, Wait][1..] == [Wait];
  }

  /** While waiting with nothing outstanding, one more completion drives the
      count below zero and does not run the callback. */
  lemma ExtraCompletionNeverFires(t: Tracker)
    requires t.waiting && t.queue <= 0
    ensures Step(t, Complete).queue < 0 && Step(t, Complete).fired == t.fired
  {
  }

  /** An entry of the `assets` list. */
  datatype Asset = Asset(kind: string, link: string, media: string)

  /** The download started for an asset: a stylesheet with a media query
      through `yepnope.injectCss`, anything else through `yepnope({load})`;
      either one is handed the completion function of its own `listen()`. */
  datatype Request = InjectCss(href: string, media: string) | Fetch(href: string)

  /** A stylesheet with a (truthy) media query. */
  predicate HasMedia(a: Asset) {
    a.kind == "css" && a.media != ""
  }

  function RequestFor(a: Asset): (r: Request)
    ensures r.href == a.link
    ensures r.InjectCss? <==> HasMedia(a)
    ensures r.InjectCss? ==> r.media == a.media
  {
    if a.kind == "css" && a.media != "" then InjectCss(a.link, a.media) else Fetch(a.link)
  }

  datatype Loaded = Loaded(requests: seq<Request>, tracker: Tracker)

  /** The `for` loop of `load` from asset `i` on: one request and one
      `listen()` per asset, in order. */
  function StartFrom(assets: seq<Asset>, i: nat, requests: seq<Request>, t: Tracker): (r: Loaded)
    requires i <= |assets| && |requests| == i
    ensures |r.requests| == |assets| && r.requests[..i] == requests
    ensures forall j :: i <= j < |assets| ==> r.requests[j] == RequestFor(assets[j])
    ensures r.tracker == t.(queue := t.queue + (|assets| - i))
    decreases |assets| - i
  {
    if i == |assets| then Loaded(requests, t)
    else StartFrom(assets, i + 1, requests + [RequestFor(assets[i])], Step(t, Listen))
  }

  /** `nodeca.runtime.load(assets, callback)`: one request per asset, in
      order; afterwards the tracker waits for exactly that many downloads,
      and has already called back when there were none. */
  function Load(assets: seq<Asset>): (r: Loaded)
    ensures |r.requests| == |assets|
    ensures forall i :: 0 <= i < |assets| ==> r.requests[i].href == assets[i].link
    ensures forall i :: 0 <= i < |assets| ==> (r.requests[i].InjectCss? <==> HasMedia(assets[i]))
    ensures forall i :: 0 <= i < |assets| ==> r.requests[i] == RequestFor(assets[i])
    ensures r.tracker.queue == |assets| && r.tracker.waiting
    ensures r.tracker.fired == if |assets| == 0 then 1 else 0
  {
    var started := StartFrom(assets, 0, [], Fresh);
    Loaded(started.requests, Step(started.tracker, Wait))
  }

  /** The callback of `load` runs once, when the last download completes,
      and not after any earlier one. */
  lemma LoadCallsBackOnce(assets: seq<Asset>, k: nat)
    requires k <= |assets|
    ensures Run(Load(assets).tracker, Completions(k)).fired == if k == |assets| then 1 else 0
  {
    FiresOnLastCompletion(Load(assets).tracker, k);
  }
}

=== FILE: render.dfy ===
/** `shared.common.render` (shared/common/render.js): a view is rendered and
    then wrapped in its layouts, the most specific first, each layout seeing
    the HTML so far as `data.content`. Views and layouts are opaque renderer
    functions. */
module Render {
  import opened Wrappers
  import opened Strings

  type Path = string

  /** The locals handed to renderers; `content` is the slot a layout reads the
      inner HTML from. */
  datatype Data<L> = Data(locals: L, content: Option<string>)

  /** The views tree, flattened: views by their dotted path, and the
      `views.layouts` subtree by paths relative to it. */
  datatype Views<!L> = Views(pages: map<Path, Data<L> -> string>, layouts: map<Path, Data<L> -> string>)

  /** The `layout` argument: absent (or any falsy value), a dotted layout
      path, or an explicit list of layout paths from least to most specific. */
  datatype Layout = NoLayout | Named(path: Path) | Stack(paths: seq<Path>)

  datatype RenderError = ViewNotFound(path: Path)

  /** The `for` loop of `get_layout_stack`, from index `i` on: each piece is
      replaced by the previous (already cumulated) one, a dot and itself. */
  function Cumulate(stack: seq<string>, i: nat): (r: seq<string>)
    requires 1 <= i <= |stack|
    ensures |r| == |stack|
    ensures forall j :: 0 <= j < i ==> r[j] == stack[j]
    ensures forall j :: i - 1 <= j < |stack| - 1 ==> r[j + 1] == r[j] + "." + stack[j + 1]
    decreases |stack| - i
  {
    if i == |stack| then stack
    else Cumulate(stack[i := stack[i - 1] + "." + stack[i]], i + 1)
  }

  /** `getLayoutStack(layout)`: one entry per dot-separated segment, the first
      being the first segment, each next one the previous plus a dot and the
      next segment, and the last the whole path. */
  function GetLayoutStack(layout: Path): (stack: seq<Path>)
    ensures |stack| == |Split(layout, '.')|
    ensures stack[0] == Split(layout, '.')[0]
    ensures forall i :: 0 <= i < |stack| - 1 ==> stack[i + 1] == stack[i] + "." + Split(layout, '.')[i + 1]
    ensures stack[|stack| - 1] == layout
  {
    var segments := Split(layout, '.');
    var stack := Cumulate(segments, 1);
    StackJoins(segments, stack, |stack| - 1);
    assert segments[..|stack|] == segments;
    stack
  }

  /** Entry `j` of a cumulated stack is the join of the first `j + 1` segments. */
  lemma {:induction false} StackJoins(segments: seq<string>, stack: seq<string>, j: nat)
    requires |stack| == |segments| && j < |stack|
    requires stack[0] == segments[0]
    requires forall i :: 0 <= i < |stack| - 1 ==> stack[i + 1] == stack[i] + "." + segments[i + 1]
    ensures stack[j] == Join(segments[..j + 1], '.')
  {
    if j > 0 {
      StackJoins(segments, stack, j - 1);
      assert segments[..j + 1] == segments[..j] + [segments[j]];
      JoinSnoc(segments[..j], segments[j], '.');
    }
  }

  predicate IsPrefix(a: string, b: string) {
    |a| <= |b| && b[..|a|] == a
  }

  /** In a stack built by the cumulation rule, each entry is a prefix of
      every later one. */
  lemma {:induction false} CumulatedPrefix(segments: seq<string>, stack: seq<string>, i: nat, j: nat)
    requires |stack| == |segments| && i <= j < |stack|
    requires forall k :: 0 <= k < |stack| - 1 ==> stack[k + 1] == stack[k] + "." + segments[k + 1]
    ensures IsPrefix(stack[i], stack[j])
    decreases j - i
  {
    if i < j {
      CumulatedPrefix(segments, stack, i, j - 1);
      assert stack[j] == stack[j - 1] + "." + segments[j];
      assert stack[j][..|stack[j - 1]|] == stack[j - 1];
      assert stack[j][..|stack[i]|] == stack[j - 1][..|stack[i]|];
    }
  }

  /** Each entry of the layout stack is a prefix of every later one, and so of
      the full layout path. */
  lemma StackPrefixes(layout: Path, i: nat, j: nat)
    requires i <= j < |GetLayoutStack(layout)|
    ensures IsPrefix(GetLayoutStack(layout)[i], GetLayoutStack(layout)[j])
    ensures IsPrefix(GetLayoutStack(layout)[i], layout)
  {
    var stack := GetLayoutStack(layout);
    CumulatedPrefix(Split(layout, '.'), stack, i, j);
    CumulatedPrefix(Split(layout, '.'), stack, i, |stack| - 1);
  }

  /** A two-segment path such as `default.blogs` stacks as `default`,
      `default.blogs`. */
  lemma LayoutStackOfTwo(a: string, b: string)
    requires '.' !in a && '.' !in b
    ensures GetLayoutStack(a + "." + b) == [a, a + "." + b]
  {
    var layout := a + "." + b;
    var parts := [a, b];
    assert Join(parts, '.') == layout;
    SplitJoin(parts, '.');
    assert Split(layout, '.') == parts;
  }

  /** A three-segment path such as `foo.bar.baz` stacks as `foo`, `foo.bar`,
      `foo.bar.baz`. */
  lemma LayoutStackOfThree(a: string, b: string, c: string)
    requires '.' !in a && '.' !in b && '.' !in c
    ensures GetLayoutStack(a + "." + b + "." + c) == [a, a + "." + b, a + "." + b + "." + c]
  {
    var layout := a + "." + b + "." + c;
    var parts := [a, b, c];
    JoinSnoc([a, b], c, '.');
    assert [a, b] + [c] == parts;
    assert Join(parts, '.') == layout;
    SplitJoin(parts, '.');
    var stack := GetLayoutStack(layout);
    assert Split(layout, '.') == parts;
    assert stack[1] == a + "." + b;
  }

  function Reverse<T>(s: seq<T>): (r: seq<T>)
    ensures |r| == |s| && forall i :: 0 <= i < |s| ==> r[i] == s[|s| - 1 - i]
  {
    if |s| == 0 then [] else Reverse(s[1..]) + [s[0]]
  }

  /** The layout paths from least to most specific; a falsy `layout` (absent
      or the empty string) means none. */
  function LayoutStack(layout: Layout): seq<Path> {
    match layout
    case NoLayout => []
    case Named(p) => if p == "" then [] else GetLayoutStack(p)
    case Stack(ps) => ps
  }

  /** One layout applied to `html`: the layout renders `data` with `content`
      set to `html`; a path with no layout function leaves `html` alone. */
  function Apply<L>(layouts: map<Path, Data<L> -> string>, path: Path, data: Data<L>, html: string): (r: string)
    ensures path !in layouts ==> r == html
    ensures path in layouts ==> r == layouts[path](data.(content := Some(html)))
  {
    if path in layouts then layouts[path](data.(content := Some(html))) else html
  }

  /** A layout sees the HTML produced so far as `content`, whatever content
      the caller's `data` carried before. */
  lemma ApplyIgnoresContent<L>(layouts: map<Path, Data<L> -> string>, path: Path, data: Data<L>,
                               other: Option<string>, html: string)
    ensures Apply(layouts, path, data, html) == Apply(layouts, path, data.(content := other), html)
  {
    assert data.(content := Some(html)) == data.(content := other).(content := Some(html));
  }

  /** The `_.each` over the reversed stack: the layouts in `chain` applied in
      order, each to the HTML the previous one produced. */
  function Wrap<L>(layouts: map<Path, Data<L> -> string>, chain: seq<Path>, data: Data<L>, html: string): string
    decreases |chain|
  {
    if |chain| == 0 then html
    else Wrap(layouts, chain[1..], data, Apply(layouts, chain[0], data, html))
  }

  /** The nesting the documentation describes: the least specific layout
      outermost, around the next one, and so on down to the rendered view. */
  function Nest<L>(layouts: map<Path, Data<L> -> string>, stack: seq<Path>, data: Data<L>, html: string): string
    decreases |stack|
  {
    if |stack| == 0 then html
    else Apply(layouts, stack[0], data, Nest(layouts, stack[1..], data, html))
  }

  /** Wrapping along a concatenation is wrapping along each part in turn. */
  lemma {:induction false} WrapAppend<L>(layouts: map<Path, Data<L> -> string>, a: seq<Path>, b: seq<Path>,
                                         data: Data<L>, html: string)
    ensures Wrap(layouts, a + b, data, html) == Wrap(layouts, b, data, Wrap(layouts, a, data, html))
    decreases |a|
  {
    if |a| > 0 {
      assert (a + b)[1..] == a[1..] + b;
      WrapAppend(layouts, a[1..], b, data, Apply(layouts, a[0], data, html));
    } else {
      assert a + b == b;
    }
  }

  /** Applying the layouts most specific first builds exactly the documented
      nesting. */
  lemma {:induction false} WrapReversedIsNest<L>(layouts: map<Path, Data<L> -> string>, stack: seq<Path>,
                                                 data: Data<L>, html: string)
    ensures Wrap(layouts, Reverse(stack), data, html) == Nest(layouts, stack, data, html)
    decreases |stack|
  {
    if |stack| > 0 {
      WrapReversedIsNest(layouts, stack[1..], data, html);
      WrapAppend(layouts, Reverse(stack[1..]), [stack[0]], data, html);
    }
  }

  /** The renderer `prepare` returns, reduced to what it captured; the
      layout stack is kept least specific first. */
  datatype Prepared<!L> = Prepared(view: Data<L> -> string, layouts: map<Path, Data<L> -> string>, stack: seq<Path>)

  /** `prepare(views, path, layout)`: a missing view is an error straight
      away; otherwise the renderer captures the view and the layout stack. */
  function Prepare<L>(views: Views<L>, path: Path, layout: Layout): (r: Result<Prepared<L>, RenderError>)
    ensures r.Failure? <==> path !in views.pages
    ensures r.Failure? ==> r.error == ViewNotFound(path)
    ensures r.Success? ==> r == Success(Prepared(views.pages[path], views.layouts, LayoutStack(layout)))
  {
    if path !in views.pages then Failure(ViewNotFound(path))
    else Success(Prepared(views.pages[path], views.layouts, LayoutStack(layout)))
  }

  /** One call of the prepared renderer: the view, then its layouts from the
      most specific to the least, which nests the least specific outermost.
      Every call gives the same nesting. */
  function Run<L>(p: Prepared<L>, data: Data<L>): (html: string)
    ensures html == Nest(p.layouts, p.stack, data, p.view(data))
  {
    WrapReversedIsNest(p.layouts, p.stack, data, p.view(data));
    Wrap(p.layouts, Reverse(p.stack), data, p.view(data))
  }

  /** `render(views, path, layout, data)`: the view's HTML nested in the
      layouts of the stack, least specific outermost, or "view not found". */
  function RenderView<L>(views: Views<L>, path: Path, layout: Layout, data: Data<L>): (r: Result<string, RenderError>)
    ensures r.Failure? <==> path !in views.pages
    ensures r.Failure? ==> r.error == ViewNotFound(path)
    ensures r.Success? ==> r.value == Nest(views.layouts, LayoutStack(layout), data, views.pages[path](data))
  {
    var p :- Prepare(views, path, layout);
    Success(Run(p, data))
  }

  /** Whether the captured `layout` is truthy: a non-empty path, or any array. */
  predicate Truthy(layout: Layout) {
    match layout
    case NoLayout => false
    case Named(p) => p != ""
    case Stack(_) => true
  }

  /** The renderer as the code is written: besides the view and the layouts
      it captures the `layout` variable itself, which each call overwrites. */
  datatype Closure<!L> = Closure(view: Data<L> -> string, layouts: map<Path, Data<L> -> string>, layout: Layout)

  /** One call of the renderer as written (render.js lines 39-58): line 43
      stores the (copied or computed) stack back into `layout`, and line 44
      reverses that very array in place, so the closure is left holding the
      stack in the reverse of the order it started with. */
  function RunAsWritten<L>(c: Closure<L>, data: Data<L>): (out: (string, Closure<L>))
    ensures out.0 == Nest(c.layouts, LayoutStack(c.layout), data, c.view(data))
    ensures out.1.view == c.view && out.1.layouts == c.layouts
    ensures LayoutStack(out.1.layout) == Reverse(LayoutStack(c.layout))
  {
    if !Truthy(c.layout) then (c.view(data), c)
    else
      var applied := Reverse(LayoutStack(c.layout));
      WrapReversedIsNest(c.layouts, LayoutStack(c.layout), data, c.view(data));
      (Wrap(c.layouts, applied, data, c.view(data)), c.(layout := Stack(applied)))
  }

  lemma {:induction false} ReverseReverse<T>(s: seq<T>)
    ensures Reverse(Reverse(s)) == s
  {
    var r := Reverse(Reverse(s));
    assert |r| == |s|;
    forall i | 0 <= i < |s|
      ensures r[i] == s[i]
    {
      assert Reverse(s)[|s| - 1 - i] == s[i];
    }
  }

  /** A second call of the same renderer as written nests the layouts the
      other way round: most specific outermost. The order flips back on the
      third call. */
  lemma SecondCallReversed<L>(c: Closure<L>, first: Data<L>, second: Data<L>)
    ensures var c1 := RunAsWritten(c, first).1;
            RunAsWritten(c1, second).0 == Nest(c.layouts, Reverse(LayoutStack(c.layout)), second, c.view(second))
    ensures LayoutStack(RunAsWritten(RunAsWritten(c, first).1, second).1.layout) == LayoutStack(c.layout)
  {
    ReverseReverse(LayoutStack(c.layout));
  }

  /** A layout that wraps the content in `tag(` … `)`. */
  function Tag(tag: string): Data<int> -> string {
    (d: Data<int>) => tag + "(" + (if d.content.Some? then d.content.value else "") + ")"
  }

  /** Two layouts nest as the first around the second. */
  lemma NestOfTwo<L>(layouts: map<Path, Data<L> -> string>, x: Path, y: Path, data: Data<L>, html: string)
    ensures Nest(layouts, [x, y], data, html) == Apply(layouts, x, data, Apply(layouts, y, data, html))
  {
    assert [x, y][1..] == [y];
    assert [y][1..] == [];
    assert Nest(layouts, [y], data, html) == Apply(layouts, y, data, Nest(layouts, [], data, html));
    assert Nest(layouts, [x, y], data, html) == Apply(layouts, x, data, Nest(layouts, [y], data, html));
  }

  /** The tagging layouts `A` at `outer` and `B` at `nested`, around `html`. */
  lemma TagsApplied(layouts: map<Path, Data<int> -> string>, outer: Path, nested: Path, data: Data<int>, html: string)
    requires outer != nested
    requires layouts == map[outer := Tag("A"), nested := Tag("B")]
    ensures Apply(layouts, outer, data, html) == "A(" + html + ")"
    ensures Apply(layouts, nested, data, html) == "B(" + html + ")"
  {
    assert outer in layouts && layouts[outer] == Tag("A");
    assert nested in layouts && layouts[nested] == Tag("B");
  }

  /** Concretely: with a layout `A` at some `outer` path and a layout `B` at
      `outer.inner`, both tagging their content, and a view rendering `v`,
      the first call gives `A(B(v))` and the second `B(A(v))`. */
  lemma SecondCallExample(c: Closure<int>, data: Data<int>, outer: string, inner: string)
    requires '.' !in outer && '.' !in inner
    requires forall d :: c.view(d) == "v"
    requires c.layouts == map[outer := Tag("A"), outer + "." + inner := Tag("B")]
    requires c.layout == Named(outer + "." + inner)
    ensures RunAsWritten(c, data).0 == "A(B(v))"
    ensures RunAsWritten(RunAsWritten(c, data).1, data).0 == "B(A(v))"
  {
    var nested := outer + "." + inner;
    assert outer != nested by {
      assert |nested| > |outer|;
    }
    LayoutStackOfTwo(outer, inner);
    TwoCalls(c, data, outer, nested);
    TaggedTwice(c.layouts, outer, nested, data);
  }

  /** With a two-layout stack the first call nests it as declared and the
      second in reverse. */
  lemma TwoCalls<L>(c: Closure<L>, data: Data<L>, outer: Path, nested: Path)
    requires LayoutStack(c.layout) == [outer, nested]
    ensures RunAsWritten(c, data).0 == Nest(c.layouts, [outer, nested], data, c.view(data))
    ensures RunAsWritten(RunAsWritten(c, data).1, data).0 == Nest(c.layouts, [nested, outer], data, c.view(data))
  {
    assert Reverse([outer, nested]) == [nested, outer];
    SecondCallReversed(c, data, data);
  }

  /** The two tagging layouts, nested either way round. */
  lemma TaggedTwice(layouts: map<Path, Data<int> -> string>, outer: Path, nested: Path, data: Data<int>)
    requires outer != nested
    requires layouts == map[outer := Tag("A"), nested := Tag("B")]
    ensures Nest(layouts, [outer, nested], data, "v") == "A(B(v))"
    ensures Nest(layouts, [nested, outer], data, "v") == "B(A(v))"
  {
    TagsApplied(layouts, outer, nested, data, "v");
    TagsApplied(layouts, outer, nested, data, "B(v)");
    TagsApplied(layouts, outer, nested, data, "A(v)");
    assert "B(" + "v" + ")" == "B(v)" && "A(" + "B(v)" + ")" == "A(B(v))";
    assert "A(" + "v" + ")" == "A(v)" && "B(" + "A(v)" + ")" == "B(A(v))";
    NestOfTwo(layouts, outer, nested, data, "v");
    NestOfTwo(layouts, nested, outer, data, "v");
  }

  /** With no layout the result is the view's own HTML. */
  lemma RenderWithoutLayout<L>(views: Views<L>, path: Path, data: Data<L>)
    requires path in views.pages
    ensures RenderView(views, path, NoLayout, data) == Success(views.pages[path](data))
    ensures RenderView(views, path, Named(""), data) == Success(views.pages[path](data))
  {
  }

  /** A layout path without a function is skipped: the result is as if it
      were not in the stack at all. */
  lemma {:induction false} MissingLayoutSkipped<L>(layouts: map<Path, Data<L> -> string>, a: seq<Path>, p: Path,
                                                   b: seq<Path>, data: Data<L>, html: string)
    requires p !in layouts
    ensures Nest(layouts, a + [p] + b, data, html) == Nest(layouts, a + b, data, html)
    decreases |a|
  {
    if |a| > 0 {
      assert (a + [p] + b)[1..] == a[1..] + [p] + b;
      assert (a + b)[1..] == a[1..] + b;
      MissingLayoutSkipped(layouts, a[1..], p, b, data, html);
    } else {
      assert a + [p] + b == [p] + b;
      assert ([p] + b)[1..] == b;
      assert a + b == b;
    }
  }

  /** The documented example, for any two-segment layout such as
      `default.blogs`: the view renders first, `default.blogs` wraps it, and
      `default` wraps that. */
  lemma RenderTwoLevels<L>(views: Views<L>, path: Path, a: string, b: string, data: Data<L>)
    requires '.' !in a && '.' !in b
    requires path in views.pages
    requires a in views.layouts && a + "." + b in views.layouts
    ensures var view := views.pages[path](data);
            var inner := views.layouts[a + "." + b](data.(content := Some(view)));
            RenderView(views, path, Named(a + "." + b), data)
              == Success(views.layouts[a](data.(content := Some(inner))))
  {
    var layout := a + "." + b;
    LayoutStackOfTwo(a, b);
    NestOfTwo(views.layouts, a, layout, data, views.pages[path](data));
  }
}

=== FILE: session_ip.dfy ===
/** The two `server_chain:*` hooks of
    lib/autoload/hooks/server_chain/check_session_ip.js: a session bound to a
    client address is refused when the request comes from a different /24
    network, and every surviving session is then bound to the request's
    address. */
module SessionIp {
  import opened Wrappers
  import opened Strings

  /** `MATCH_OCTETS_COUNT`: addresses are compared under a 255.255.255.0 mask. */
  const MatchOctets: nat := 3

  /** The session; `ip` is `None` when the property is absent (a session
      created before the hook was enabled). */
  datatype Session = Session(ip: Option<string>, data: map<string, string>)

  /** The part of `env` the hooks touch: the session (`None` when falsy) and
      the request's address. */
  datatype Env = Env(session: Option<Session>, requestIp: string)

  /** `_.take(xs, n)`: the first `n` items, or all when there are fewer. */
  function Take<T>(xs: seq<T>, n: nat): (r: seq<T>)
    ensures |r| == if |xs| < n then |xs| else n
    ensures r == xs[..|r|]
  {
    if |xs| < n then xs else xs[..n]
  }

  /** The octets the comparison looks at. */
  function Octets(ip: string): (r: seq<string>)
    ensures 1 <= |r| <= MatchOctets
    ensures forall i :: 0 <= i < |r| ==> '.' !in r[i]
    ensures |r| == (if |Split(ip, '.')| < MatchOctets then |Split(ip, '.')| else MatchOctets)
    ensures r == Split(ip, '.')[..|r|]
  {
    Take(Split(ip, '.'), MatchOctets)
  }

  /** The masked address: the first three octets joined back with dots. */
  function Masked(ip: string): string {
    Join(Octets(ip), '.')
  }

  /** Comparing the re-joined strings is the same as comparing the octet
      lists themselves. */
  lemma MaskedEqualIffOctetsEqual(a: string, b: string)
    ensures Masked(a) == Masked(b) <==> Octets(a) == Octets(b)
  {
    JoinInjective(Octets(a), Octets(b), '.');
  }

  /** `check_session_ip`: no session, or a session not yet bound to an
      address, passes unchanged; a bound session is kept when the masked
      addresses agree and refused otherwise. */
  function CheckSessionIp(env: Env): (r: Env)
    ensures r.requestIp == env.requestIp
    ensures r.session == env.session || r.session.None?
    ensures r.session.None? <==>
              env.session.None? || (env.session.value.ip.Some? && Octets(env.requestIp) != Octets(env.session.value.ip.value))
  {
    MaskedEqualIffOctetsEqual(env.requestIp, if env.session.Some? && env.session.value.ip.Some? then env.session.value.ip.value else "");
    if env.session.None? then env
    else if env.session.value.ip.None? then env
    else if Masked(env.requestIp) == Masked(env.session.value.ip.value) then env
    else env.(session := None)
  }

  /** `set_session_ip`: a surviving session is bound to the request's address;
      nothing else about it changes. */
  function SetSessionIp(env: Env): (r: Env)
    ensures r.requestIp == env.requestIp
    ensures r.session.Some? <==> env.session.Some?
    ensures r.session.Some? ==> r.session.value.ip == Some(env.requestIp) && r.session.value.data == env.session.value.data
  {
    if env.session.None? then env
    else env.(session := Some(env.session.value.(ip := Some(env.requestIp))))
  }

  /** The two hooks in priority order: the address check (-75) runs before the
      binding (-65). */
  function Chain(env: Env): Env {
    SetSessionIp(CheckSessionIp(env))
  }

  /** Only the first three octets matter: addresses in the same /24 network
      match whatever their last octet. */
  lemma FourthOctetIgnored(a: string, b: string, c: string, d: string, e: string)
    requires '.' !in a && '.' !in b && '.' !in c
    ensures Octets(a + "." + b + "." + c + "." + d) == Octets(a + "." + b + "." + c + "." + e)
  {
    OctetsOfDotted(a, b, c, d);
    OctetsOfDotted(a, b, c, e);
  }

  /** The octets of an address are the first three of any dot-free pieces it
      joins from. */
  lemma OctetsOfPieces(ip: string, parts: seq<string>)
    requires |parts| >= MatchOctets
    requires forall i :: 0 <= i < |parts| ==> '.' !in parts[i]
    requires Join(parts, '.') == ip
    ensures Octets(ip) == parts[..MatchOctets]
  {
    SplitJoin(parts, '.');
  }

  /** Concatenating lists of dot-free pieces gives dot-free pieces. */
  lemma DotFreeConcat(xs: seq<string>, ys: seq<string>)
    requires forall i :: 0 <= i < |xs| ==> '.' !in xs[i]
    requires forall i :: 0 <= i < |ys| ==> '.' !in ys[i]
    ensures forall i :: 0 <= i < |xs + ys| ==> '.' !in (xs + ys)[i]
  {
    assert forall i :: |xs| <= i < |xs + ys| ==> (xs + ys)[i] == ys[i - |xs|];
  }

  /** Joining a piece in front of a non-empty list. */
  lemma JoinCons(x: string, tail: seq<string>)
    requires |tail| > 0
    ensures Join([x] + tail, '.') == x + "." + Join(tail, '.')
  {
    assert ([x] + tail)[1..] == tail;
  }

  /** Three dot-free octets in front of any further dot-free pieces are the
      octets compared. */
  lemma OctetsOfJoined(a: string, b: string, c: string, tail: seq<string>)
    requires '.' !in a && '.' !in b && '.' !in c
    requires forall i :: 0 <= i < |tail| ==> '.' !in tail[i]
    ensures Octets(Join([a, b, c] + tail, '.')) == [a, b, c]
  {
    DotFreeConcat([a, b, c], tail);
    OctetsOfPieces(Join([a, b, c] + tail, '.'), [a, b, c] + tail);
    assert ([a, b, c] + tail)[..3] == [a, b, c];
  }

  /** The octets of `a.b.c.rest` are `a`, `b`, `c`, whatever `rest` holds. */
  lemma OctetsOfDotted(a: string, b: string, c: string, rest: string)
    requires '.' !in a && '.' !in b && '.' !in c
    ensures Octets(a + "." + b + "." + c + "." + rest) == [a, b, c]
  {
    var tail := Split(rest, '.');
    var ct := [c] + tail;
    var bct := [b] + ct;
    JoinCons(c, tail);
    JoinCons(b, ct);
    JoinCons(a, bct);
    assert [a] + bct == [a, b, c] + tail;
    assert a + "." + (b + "." + (c + "." + rest)) == a + "." + b + "." + c + "." + rest;
    OctetsOfJoined(a, b, c, tail);
  }

  /** A session whose address differs from the request's within the first
      three octets is refused. */
  lemma DifferentNetworkRefused(env: Env, a: string, b: string, c: string, c': string, d: string, e: string)
    requires '.' !in a && '.' !in b && '.' !in c && '.' !in c' && c != c'
    requires env.session.Some? && env.session.value.ip == Some(a + "." + b + "." + c + "." + d)
    requires env.requestIp == a + "." + b + "." + c' + "." + e
    ensures CheckSessionIp(env).session.None?
  {
    OctetsOfDotted(a, b, c, d);
    OctetsOfDotted(a, b, c', e);
    assert [a, b, c][2] != [a, b, c'][2];
  }

  /** Addresses without dots (IPv6) are compared whole: they match only when
      equal. */
  lemma DotlessComparedWhole(env: Env)
    requires env.session.Some? && env.session.value.ip.Some?
    requires '.' !in env.requestIp && '.' !in env.session.value.ip.value
    ensures CheckSessionIp(env).session.Some? <==> env.requestIp == env.session.value.ip.value
  {
    SplitPiece(env.requestIp, '.');
    SplitPiece(env.session.value.ip.value, '.');
  }

  /** Once bound, a session survives the next request from the same /24
      network, and in particular from the same address. */
  lemma BoundSessionSurvives(env: Env, nextIp: string)
    requires Chain(env).session.Some?
    requires Octets(nextIp) == Octets(env.requestIp)
    ensures CheckSessionIp(Chain(env).(requestIp := nextIp)).session == Chain(env).session
  {
  }

  /** After the chain every surviving session is bound to the request's
      address, and running the chain again on the same request changes
      nothing. */
  lemma ChainBindsAndSettles(env: Env)
    ensures Chain(env).session.Some? ==> Chain(env).session.value.ip == Some(env.requestIp)
    ensures Chain(Chain(env)) == Chain(env)
  {
  }

  /** An unbound session is never refused; it is bound instead. */
  lemma UnboundSessionAdopted(env: Env)
    requires env.session.Some? && env.session.value.ip.None?
    ensures Chain(env).session == Some(env.session.value.(ip := Some(env.requestIp)))
  {
  }
}

=== FILE: settings_merge.dfy ===
/** `Settings#mergeValues` (lib/settings/settings.js): the merge of the raw
    contributions several stores make for one setting key. Forced
    contributions are combined with AND, regular ones with OR, and a single
    forced contribution makes every regular one irrelevant. Only boolean
    values are modelled. */
module SettingsMerge {
  import opened Wrappers

  /** A store's raw answer for one key: its `value` and its `force` flag. The
      merged result has the same shape. */
  datatype Contribution = Contribution(value: bool, force: bool)

  /** One element of the merge input; `None` stands for an absent (falsy)
      entry, a store with no opinion on the key. */
  type Entry = Option<Contribution>

  predicate IsForced(e: Entry) {
    e.Some? && e.value.force
  }

  predicate IsRegular(e: Entry) {
    e.Some? && !e.value.force
  }

  /** A forced `false`: one of these revokes the setting whatever else is said. */
  predicate Revokes(e: Entry) {
    IsForced(e) && !e.value.value
  }

  /** A regular `true`: one of these grants the setting when nothing is forced. */
  predicate Grants(e: Entry) {
    IsRegular(e) && e.value.value
  }

  predicate IsPresent(e: Entry) {
    e.Some?
  }

  /** Some entry of `values` satisfies `p`. */
  function Any(values: seq<Entry>, p: Entry -> bool): bool {
    |values| > 0 && (p(values[0]) || Any(values[1..], p))
  }

  lemma {:induction false} AnyExists(values: seq<Entry>, p: Entry -> bool)
    ensures Any(values, p) <==> exists i :: 0 <= i < |values| && p(values[i])
  {
    if |values| > 0 {
      AnyExists(values[1..], p);
      assert forall i :: 1 <= i < |values| ==> values[i] == values[1..][i - 1];
    }
  }

  /** The four local variables of the source's loop. */
  datatype Scan = Scan(forcedMode: bool, valueForced: bool, valueRegular: bool, hasValue: bool)

  const Start := Scan(false, true, false, false)

  /** One iteration of the loop body on one entry. */
  function Step(st: Scan, e: Entry): Scan {
    match e
    case None => st
    case Some(c) =>
      if !c.force then st.(hasValue := true, valueRegular := st.valueRegular || c.value)
      else st.(hasValue := true, forcedMode := true, valueForced := st.valueForced && c.value)
  }

  /** The loop runs from the last entry down to the first, so the state after
      the whole input is one step on `values[0]` after the scan of the rest.
      Whatever the order, each flag records a fact about the whole input. */
  function ScanAll(values: seq<Entry>): (st: Scan)
    ensures st.hasValue == Any(values, IsPresent)
    ensures st.forcedMode == Any(values, IsForced)
    ensures st.valueForced == !Any(values, Revokes)
    ensures st.valueRegular == Any(values, Grants)
  {
    if |values| == 0 then Start else Step(ScanAll(values[1..]), values[0])
  }

  /** `mergeValues(values)`: `None` (the source's `null`) when every entry is
      absent; otherwise forced entries, if any, decide by AND with `force`
      set, and regular entries decide by OR with `force` clear. */
  function MergeValues(values: seq<Entry>): (r: Option<Contribution>)
    ensures r.None? <==> !Any(values, IsPresent)
    ensures r.Some? ==> r.value.force == Any(values, IsForced)
    ensures r.Some? && r.value.force ==> r.value.value == !Any(values, Revokes)
    ensures r.Some? && !r.value.force ==> r.value.value == Any(values, Grants)
  {
    var st := ScanAll(values);
    if !st.hasValue then None
    else Some(Contribution(if st.forcedMode then st.valueForced else st.valueRegular, st.forcedMode))
  }

  /** The merge rules stated over positions: unresolved exactly when every
      entry is absent; forced exactly when some entry is forced, and then
      `true` exactly when no forced entry is `false`; otherwise `true` exactly
      when some regular entry is `true`. */
  lemma MergeRules(values: seq<Entry>)
    ensures MergeValues(values).None? <==> forall i :: 0 <= i < |values| ==> values[i].None?
    ensures MergeValues(values).Some? ==>
              (MergeValues(values).value.force <==> exists i :: 0 <= i < |values| && IsForced(values[i]))
    ensures MergeValues(values).Some? && MergeValues(values).value.force ==>
              (MergeValues(values).value.value <==> forall i :: 0 <= i < |values| ==> !Revokes(values[i]))
    ensures MergeValues(values).Some? && !MergeValues(values).value.force ==>
              (MergeValues(values).value.value <==> exists i :: 0 <= i < |values| && Grants(values[i]))
  {
    AnyExists(values, IsPresent);
    AnyExists(values, IsForced);
    AnyExists(values, Revokes);
    AnyExists(values, Grants);
  }

  /** The merge sees only which entries occur, not their order or how often:
      two inputs with the same elements merge alike. */
  lemma MergeSameElements(xs: seq<Entry>, ys: seq<Entry>)
    requires forall e :: e in xs <==> e in ys
    ensures MergeValues(xs) == MergeValues(ys)
  {
    SameElementsAny(xs, ys, IsPresent);
    SameElementsAny(xs, ys, IsForced);
    SameElementsAny(xs, ys, Revokes);
    SameElementsAny(xs, ys, Grants);
  }

  lemma SameElementsAny(xs: seq<Entry>, ys: seq<Entry>, p: Entry -> bool)
    requires forall e :: e in xs <==> e in ys
    ensures Any(xs, p) == Any(ys, p)
  {
    AnyExists(xs, p);
    AnyExists(ys, p);
    if i :| 0 <= i < |xs| && p(xs[i]) {
      assert xs[i] in ys;
    }
    if j :| 0 <= j < |ys| && p(ys[j]) {
      assert ys[j] in xs;
    }
  }

  /** Order independence: any permutation of the input merges to the same result. */
  lemma MergePermutation(xs: seq<Entry>, ys: seq<Entry>)
    requires multiset(xs) == multiset(ys)
    ensures MergeValues(xs) == MergeValues(ys)
  {
    forall e
      ensures e in xs <==> e in ys
    {
      assert e in xs <==> e in multiset(xs);
      assert e in ys <==> e in multiset(ys);
    }
    MergeSameElements(xs, ys);
  }

  /** One forced `false` overrides any number of forced `true` and any regular
      entries. */
  lemma ForcedFalseWins(values: seq<Entry>, i: nat)
    requires i < |values| && Revokes(values[i])
    ensures MergeValues(values) == Some(Contribution(false, true))
  {
    MergeRules(values);
  }

  /** With a forced entry present, the regular entries are ignored: removing or
      adding any of them leaves the result unchanged. */
  lemma RegularIgnoredWhenForced(forced: seq<Entry>, regular: seq<Entry>)
    requires exists i :: 0 <= i < |forced| && IsForced(forced[i])
    requires forall i :: 0 <= i < |regular| ==> !IsForced(regular[i])
    ensures MergeValues(forced + regular) == MergeValues(forced)
  {
    var all := forced + regular;
    MergeRules(all);
    MergeRules(forced);
    assert forall i :: 0 <= i < |forced| ==> all[i] == forced[i];
    assert forall i :: |forced| <= i < |all| ==> all[i] == regular[i - |forced|];
  }

  /** The examples of the resolution rules: forced beats regular, forced
      entries combine by AND, regular ones by OR, and absence is unresolved. */
  lemma MergeExamples()
    ensures MergeValues([Some(Contribution(true, false)), Some(Contribution(false, true))])
            == Some(Contribution(false, true))
    ensures MergeValues([Some(Contribution(true, true)), Some(Contribution(false, true))])
            == Some(Contribution(false, true))
    ensures MergeValues([Some(Contribution(false, false)), Some(Contribution(true, false))])
            == Some(Contribution(true, false))
    ensures MergeValues([None, None]) == None
  {
    assert Grants([Some(Contribution(false, false)), Some(Contribution(true, false))][1]);
    assert Revokes([Some(Contribution(true, true)), Some(Contribution(false, true))][1]);
  }
}

=== FILE: settings_registry.dfy ===
/** The store registry of `Settings` (lib/settings/settings.js): a map from
    store name to store and an index from each setting key to the stores
    that declare it, in registration order. */
module SettingsRegistry {
  import opened Wrappers

  type Name = string
  type Key = string

  /** A registered store as the resolver sees it: the name `addStore` stamps
      on it and the keys it declares. What it answers is an oracle supplied
      to the resolver. */
  datatype Store = Store(name: Name, keys: seq<Key>)

  /** The errors the settings manager reports, thrown or handed to a callback. */
  datatype Error =
    | DuplicateStore(name: Name)
    | UnknownKey(key: Key)
    | StoreFailed(reason: string)
    | Unresolved(keys: set<Key>)
    | UnknownStore(name: Name)

  datatype Registry = Registry(stores: map<Name, Store>, index: map<Key, seq<Store>>)

  /** `new Settings()`. */
  const Empty := Registry(map[], map[])

  /** What every registry built by `addStore` satisfies: each store carries
      its own name, the index lists exactly registered stores under keys they
      declare, every declared key is indexed, and no key has an empty list. */
  ghost predicate Valid(reg: Registry) {
    && (forall n :: n in reg.stores ==> reg.stores[n].name == n)
    && (forall k, i :: k in reg.index && 0 <= i < |reg.index[k]| ==>
          && reg.index[k][i].name in reg.stores
          && reg.stores[reg.index[k][i].name] == reg.index[k][i]
          && k in reg.index[k][i].keys)
    && (forall n, k :: n in reg.stores && k in reg.stores[n].keys ==>
          k in reg.index && reg.stores[n] in reg.index[k])
    && (forall k :: k in reg.index ==> |reg.index[k]| > 0)
  }

  /** No store is listed twice under one key, which holds as long as no store
      declares a key twice. */
  ghost predicate IndexDistinct(reg: Registry) {
    forall k, i, j :: k in reg.index && 0 <= i < j < |reg.index[k]| ==> reg.index[k][i] != reg.index[k][j]
  }

  predicate DistinctKeys(keys: seq<Key>) {
    forall i, j :: 0 <= i < j < |keys| ==> keys[i] != keys[j]
  }

  /** `getStore(name)`: the store or `None` (the source's `null`). */
  function GetStore(reg: Registry, name: Name): (r: Option<Store>)
    ensures r.Some? <==> name in reg.stores
    ensures r.Some? ==> r.value == reg.stores[name]
    ensures Valid(reg) && r.Some? ==> r.value.name == name
  {
    if name in reg.stores then Some(reg.stores[name]) else None
  }

  /** `getStoresForKey(key)`: the stores declaring `key`, empty for an unknown
      key. Being a value, the result can never alias the registry's list. */
  function GetStoresForKey(reg: Registry, key: Key): (r: seq<Store>)
    ensures key !in reg.index ==> r == []
    ensures key in reg.index ==> r == reg.index[key]
  {
    StoresIn(reg.index, key)
  }

  /** In a valid registry, every store listed for a key is the registered
      store of its name and declares the key; a declared key lists its store. */
  lemma StoresForKeyOwn(reg: Registry, key: Key, n: Name)
    requires Valid(reg)
    ensures forall i :: 0 <= i < |GetStoresForKey(reg, key)| ==>
              && GetStore(reg, GetStoresForKey(reg, key)[i].name) == Some(GetStoresForKey(reg, key)[i])
              && key in GetStoresForKey(reg, key)[i].keys
    ensures n in reg.stores && key in reg.stores[n].keys ==> reg.stores[n] in GetStoresForKey(reg, key)
  {
  }

  function StoresIn(index: map<Key, seq<Store>>, key: Key): seq<Store> {
    if key in index then index[key] else []
  }

  /** `n` copies of `x`. */
  function Repeat<T>(x: T, n: nat): (r: seq<T>)
    ensures |r| == n && forall i :: 0 <= i < n ==> r[i] == x
  {
    if n == 0 then [] else [x] + Repeat(x, n - 1)
  }

  /** The `store.keys.forEach` loop of `addStore`: `s` is pushed onto the list
      of each declared key, once per occurrence of the key. */
  function IndexKeys(index: map<Key, seq<Store>>, s: Store, keys: seq<Key>): (r: map<Key, seq<Store>>)
    ensures forall k :: k in r <==> k in index || k in keys
    ensures forall k :: StoresIn(r, k) == StoresIn(index, k) + Repeat(s, multiset(keys)[k])
    decreases |keys|
  {
    if |keys| == 0 then index
    else
      var next := index[keys[0] := StoresIn(index, keys[0]) + [s]];
      var r := IndexKeys(next, s, keys[1..]);
      IndexKeysStep(index, next, r, s, keys);
      r
  }

  lemma IndexKeysStep(index: map<Key, seq<Store>>, next: map<Key, seq<Store>>, r: map<Key, seq<Store>>,
                      s: Store, keys: seq<Key>)
    requires |keys| > 0 && next == index[keys[0] := StoresIn(index, keys[0]) + [s]]
    requires forall k :: StoresIn(r, k) == StoresIn(next, k) + Repeat(s, multiset(keys[1..])[k])
    ensures forall k :: StoresIn(r, k) == StoresIn(index, k) + Repeat(s, multiset(keys)[k])
  {
    MultisetCons(keys);
    forall k
      ensures StoresIn(r, k) == StoresIn(index, k) + Repeat(s, multiset(keys)[k])
    {
      var n := multiset(keys[1..])[k];
      if k == keys[0] {
        assert Repeat(s, n + 1) == [s] + Repeat(s, n);
        calc {
          StoresIn(r, k);
          StoresIn(index, k) + [s] + Repeat(s, n);
          StoresIn(index, k) + ([s] + Repeat(s, n));
        }
      }
    }
  }

  lemma MultisetCons(keys: seq<Key>)
    requires |keys| > 0
    ensures forall k :: multiset(keys)[k] == multiset(keys[1..])[k] + (if k == keys[0] then 1 else 0)
  {
    assert keys == [keys[0]] + keys[1..];
  }

  /** The outcome of `addStore`: the registry afterwards and the thrown error,
      if any. */
  datatype Registered = Registered(after: Registry, failure: Option<Error>)

  /** `addStore(name, store)`: a taken name throws and changes nothing;
      otherwise the store is stamped with `name`, indexed under each of its
      keys and registered under `name`. */
  function AddStore(reg: Registry, name: Name, keys: seq<Key>): (r: Registered)
    ensures name in reg.stores <==> r.failure.Some?
    ensures name in reg.stores ==> r.after == reg && r.failure == Some(DuplicateStore(name))
    ensures name !in reg.stores ==> r.after.stores == reg.stores[name := Store(name, keys)]
    ensures name !in reg.stores ==>
              forall k :: GetStoresForKey(r.after, k)
                            == GetStoresForKey(reg, k) + Repeat(Store(name, keys), multiset(keys)[k])
  {
    if name in reg.stores then Registered(reg, Some(DuplicateStore(name)))
    else
      var s := Store(name, keys);
      Registered(Registry(reg.stores[name := s], IndexKeys(reg.index, s, keys)), None)
  }

  /** After a successful `addStore`, `getStore` finds the new store under its
      name and every other name still finds what it found before. */
  lemma AddStoreThenGetStore(reg: Registry, name: Name, keys: seq<Key>, other: Name)
    requires name !in reg.stores
    ensures GetStore(AddStore(reg, name, keys).after, name) == Some(Store(name, keys))
    ensures other != name ==> GetStore(AddStore(reg, name, keys).after, other) == GetStore(reg, other)
  {
  }

  /** For a store without repeated keys, `addStore` appends it exactly once to
      the list of each of its keys and leaves every other key's list alone. */
  lemma AddStoreAppends(reg: Registry, name: Name, keys: seq<Key>, k: Key)
    requires name !in reg.stores && DistinctKeys(keys)
    ensures k in keys ==>
              GetStoresForKey(AddStore(reg, name, keys).after, k) == GetStoresForKey(reg, k) + [Store(name, keys)]
    ensures k !in keys ==>
              GetStoresForKey(AddStore(reg, name, keys).after, k) == GetStoresForKey(reg, k)
  {
    DistinctCount(keys, k);
    var s := Store(name, keys);
    var after := AddStore(reg, name, keys).after;
    assert GetStoresForKey(after, k) == GetStoresForKey(reg, k) + Repeat(s, multiset(keys)[k]);
    assert Repeat(s, 1) == [s] && Repeat(s, 0) == [];
  }

  lemma {:induction false} DistinctCount(keys: seq<Key>, k: Key)
    requires DistinctKeys(keys)
    ensures multiset(keys)[k] == if k in keys then 1 else 0
  {
    if |keys| > 0 {
      assert keys == [keys[0]] + keys[1..];
      DistinctCount(keys[1..], k);
      assert k == keys[0] ==> k !in keys[1..];
    }
  }

  /** `addStore` keeps the registry well formed. */
  lemma AddStorePreservesValid(reg: Registry, name: Name, keys: seq<Key>)
    requires Valid(reg)
    ensures Valid(AddStore(reg, name, keys).after)
  {
    if name !in reg.stores {
      var after := AddStore(reg, name, keys).after;
      forall k, i | k in after.index && 0 <= i < |after.index[k]|
        ensures after.index[k][i].name in after.stores
        ensures after.stores[after.index[k][i].name] == after.index[k][i]
        ensures k in after.index[k][i].keys
      {
        IndexedAfterAdd(reg, name, keys, k, i);
      }
      forall n, k | n in after.stores && k in after.stores[n].keys
        ensures k in after.index && after.stores[n] in after.index[k]
      {
        DeclaredAfterAdd(reg, name, keys, n, k);
      }
      forall k | k in after.index
        ensures |after.index[k]| > 0
      {
        assert after.index[k] == GetStoresForKey(after, k);
        if k !in reg.index {
          assert k in keys;
        }
      }
    }
  }

  lemma IndexedAfterAdd(reg: Registry, name: Name, keys: seq<Key>, k: Key, i: int)
    requires Valid(reg) && name !in reg.stores
    requires k in AddStore(reg, name, keys).after.index
    requires 0 <= i < |AddStore(reg, name, keys).after.index[k]|
    ensures var after := AddStore(reg, name, keys).after;
            && after.index[k][i].name in after.stores
            && after.stores[after.index[k][i].name] == after.index[k][i]
            && k in after.index[k][i].keys
  {
    var s := Store(name, keys);
    var after := AddStore(reg, name, keys).after;
    var list := GetStoresForKey(after, k);
    assert after.index[k] == list;
    var before := GetStoresForKey(reg, k);
    assert list == before + Repeat(s, multiset(keys)[k]);
    if i < |before| {
      assert list[i] == before[i] == reg.index[k][i];
    } else {
      assert list[i] == s;
      assert multiset(keys)[k] > 0;
    }
  }

  lemma DeclaredAfterAdd(reg: Registry, name: Name, keys: seq<Key>, n: Name, k: Key)
    requires Valid(reg) && name !in reg.stores
    requires n in AddStore(reg, name, keys).after.stores
    requires k in AddStore(reg, name, keys).after.stores[n].keys
    ensures var after := AddStore(reg, name, keys).after;
            k in after.index && after.stores[n] in after.index[k]
  {
    var s := Store(name, keys);
    var after := AddStore(reg, name, keys).after;
    var before := GetStoresForKey(reg, k);
    var list := GetStoresForKey(after, k);
    assert list == before + Repeat(s, multiset(keys)[k]);
    if n == name {
      assert multiset(keys)[k] > 0;
      assert list[|before|] == s;
    } else {
      assert reg.stores[n] in before;
      assert list[..|before|] == before;
    }
  }

  /** `addStore` keeps each key's list free of repeats when the new store
      declares no key twice. */
  lemma AddStorePreservesDistinct(reg: Registry, name: Name, keys: seq<Key>)
    requires Valid(reg) && IndexDistinct(reg) && DistinctKeys(keys)
    ensures IndexDistinct(AddStore(reg, name, keys).after)
  {
    if name !in reg.stores {
      var s := Store(name, keys);
      var after := AddStore(reg, name, keys).after;
      forall k, i, j | k in after.index && 0 <= i < j < |after.index[k]|
        ensures after.index[k][i] != after.index[k][j]
      {
        AddStoreAppends(reg, name, keys, k);
        var before := GetStoresForKey(reg, k);
        assert after.index[k] == GetStoresForKey(after, k);
        if j < |before| {
          assert before == reg.index[k];
        } else {
          assert before[i] == reg.index[k][i];
          assert before[i].name in reg.stores;
        }
      }
    }
  }
}

=== FILE: settings_resolver.dfy ===
/** `Settings#get` and `Settings#set` (lib/settings/settings.js): the batch
    resolver that asks every store owning a requested key for exactly those
    keys, merges the answers per key, and fails as a whole if any part fails;
    and the passthrough that hands new values to one named store. */
module SettingsResolver {
  import opened Wrappers
  import opened SettingsMerge
  import opened SettingsRegistry

  /** The stores' own `get`, with the caller's `params` and `options` bound:
      given a store name and the keys asked of it, a map from key to raw
      entry, or the error the store reports. */
  type Ask = (Name, seq<Key>) -> Result<map<Key, Entry>, string>

  /** `keys` given as one string or as an array. */
  datatype Request = Single(key: Key) | Batch(keys: seq<Key>) {
    function Keys(): seq<Key> {
      match this
      case Single(k) => [k]
      case Batch(ks) => ks
    }
  }

  /** What the callback receives on success: a scalar for a single key (the
      source reads `results[keys]`, undefined when no store returned the key),
      a key-to-value map for a batch. */
  datatype Answer = Scalar(value: Option<bool>) | Values(values: map<Key, bool>)

  /** One call of a store's `get`. */
  datatype Query = Query(store: Name, keys: seq<Key>)

  /** The store calls `get` issues and what it hands to its callback. */
  datatype Resolution = Resolution(queries: seq<Query>, result: Result<Answer, Error>)

  predicate Known(reg: Registry, k: Key) {
    |GetStoresForKey(reg, k)| > 0
  }

  /** Some store declaring `k` is registered under `n`. */
  predicate OwnerNamed(reg: Registry, k: Key, n: Name) {
    exists i :: 0 <= i < |GetStoresForKey(reg, k)| && GetStoresForKey(reg, k)[i].name == n
  }

  /** The unknown-key scan: every unknown key overwrites the one error slot,
      so the error names the last unknown key of the request. */
  function LastUnknownKey(reg: Registry, keys: seq<Key>): (r: Option<Key>)
    ensures r.None? <==> forall i :: 0 <= i < |keys| ==> Known(reg, keys[i])
    ensures r.Some? ==> exists i :: && 0 <= i < |keys| && keys[i] == r.value && !Known(reg, keys[i])
                                    && forall j :: i < j < |keys| ==> Known(reg, keys[j])
  {
    if |keys| == 0 then None
    else if !Known(reg, keys[|keys| - 1]) then Some(keys[|keys| - 1])
    else
      var r := LastUnknownKey(reg, keys[..|keys| - 1]);
      LastUnknownStep(reg, keys, r);
      r
  }

  /** A known last key leaves the answer to the keys before it. */
  lemma LastUnknownStep(reg: Registry, keys: seq<Key>, r: Option<Key>)
    requires |keys| > 0 && Known(reg, keys[|keys| - 1])
    requires var init := keys[..|keys| - 1];
             && (r.None? <==> forall i :: 0 <= i < |init| ==> Known(reg, init[i]))
             && (r.Some? ==> exists i :: && 0 <= i < |init| && init[i] == r.value && !Known(reg, init[i])
                                         && forall j :: i < j < |init| ==> Known(reg, init[j]))
    ensures r.None? <==> forall i :: 0 <= i < |keys| ==> Known(reg, keys[i])
    ensures r.Some? ==> exists i :: && 0 <= i < |keys| && keys[i] == r.value && !Known(reg, keys[i])
                                    && forall j :: i < j < |keys| ==> Known(reg, keys[j])
  {
    var init := keys[..|keys| - 1];
    assert forall i :: 0 <= i < |init| ==> init[i] == keys[i];
    if r.Some? {
      var i :| && 0 <= i < |init| && init[i] == r.value && !Known(reg, init[i])
               && forall j :: i < j < |init| ==> Known(reg, init[j]);
      assert forall j :: i < j < |keys| ==> Known(reg, keys[j]);
    }
  }

  /** The `store_keys` object: store names in the order they were first met,
      and the keys to ask of each. */
  datatype Plan = Plan(order: seq<Name>, asks: map<Name, seq<Key>>)

  ghost predicate PlanOk(p: Plan) {
    && (forall n :: n in p.asks <==> n in p.order)
    && (forall i, j :: 0 <= i < j < |p.order| ==> p.order[i] != p.order[j])
  }

  function AsksOf(p: Plan, n: Name): seq<Key> {
    if n in p.asks then p.asks[n] else []
  }

  /** `store_keys[store.name].push(key)`, creating the list on first use. */
  function AddAsk(p: Plan, n: Name, k: Key): (r: Plan)
    ensures PlanOk(p) ==> PlanOk(r)
    ensures PlanOk(p) ==> r.order == p.order + (if n in p.order then [] else [n])
    ensures forall m :: AsksOf(r, m) == AsksOf(p, m) + (if m == n then [k] else [])
  {
    if n in p.asks then p.(asks := p.asks[n := p.asks[n] + [k]])
    else Plan(p.order + [n], p.asks[n := [k]])
  }

  /** How many stores in `stores` carry the name `n`. */
  function NameCount(stores: seq<Store>, n: Name): (c: nat)
    ensures c > 0 <==> exists i :: 0 <= i < |stores| && stores[i].name == n
  {
    if |stores| == 0 then 0
    else
      var c := NameCount(stores[1..], n);
      assert forall i :: 1 <= i < |stores| ==> stores[i] == stores[1..][i - 1];
      (if stores[0].name == n then 1 else 0) + c
  }

  /** The inner `stores.forEach`: each store owning `k` gets `k` appended. */
  function AskStores(p: Plan, stores: seq<Store>, k: Key): (r: Plan)
    ensures PlanOk(p) ==> PlanOk(r)
    ensures forall m :: AsksOf(r, m) == AsksOf(p, m) + Repeat(k, NameCount(stores, m))
    decreases |stores|
  {
    if |stores| == 0 then p
    else
      var r := AskStores(AddAsk(p, stores[0].name, k), stores[1..], k);
      assert forall m :: Repeat(k, NameCount(stores, m))
                         == (if m == stores[0].name then [k] else []) + Repeat(k, NameCount(stores[1..], m)) by {
        forall m ensures Repeat(k, NameCount(stores, m))
                         == (if m == stores[0].name then [k] else []) + Repeat(k, NameCount(stores[1..], m)) {
          if m == stores[0].name {
            assert Repeat(k, NameCount(stores, m)) == [k] + Repeat(k, NameCount(stores[1..], m));
          }
        }
      }
      r
  }

  /** The outer `forEach` over the requested keys: a store is asked for a key
      exactly when the key is requested and the store declares it. */
  function PlanFor(reg: Registry, keys: seq<Key>): (p: Plan)
    ensures PlanOk(p)
    ensures forall m, k :: k in AsksOf(p, m) <==> k in keys && OwnerNamed(reg, k, m)
  {
    if |keys| == 0 then Plan([], map[])
    else
      var last := keys[|keys| - 1];
      var prefix := keys[..|keys| - 1];
      var prev := PlanFor(reg, prefix);
      var p := AskStores(prev, GetStoresForKey(reg, last), last);
      assert keys == prefix + [last];
      assert forall k :: k in keys <==> k in prefix || k == last;
      p
  }

  /** The queries the plan issues, one per store, in first-met order. */
  function QueriesOf(p: Plan): (qs: seq<Query>)
    ensures |qs| == |p.order|
    ensures forall i :: 0 <= i < |qs| ==> qs[i] == Query(p.order[i], AsksOf(p, p.order[i]))
  {
    seq(|p.order|, i requires 0 <= i < |p.order| => Query(p.order[i], AsksOf(p, p.order[i])))
  }

  /** No store is queried twice. */
  ghost predicate DistinctStores(queries: seq<Query>) {
    forall i, j :: 0 <= i < j < |queries| ==> queries[i].store != queries[j].store
  }

  /** Each store is asked for the requested keys it declares and no others. */
  ghost predicate AsksOwnedKeys(reg: Registry, keys: seq<Key>, queries: seq<Query>) {
    forall i, k :: 0 <= i < |queries| ==> (k in queries[i].keys <==> k in keys && OwnerNamed(reg, k, queries[i].store))
  }

  /** Every store declaring a requested key is queried. */
  ghost predicate CoversOwners(reg: Registry, keys: seq<Key>, queries: seq<Query>) {
    forall k, n :: k in keys && OwnerNamed(reg, k, n) ==> exists i :: 0 <= i < |queries| && queries[i].store == n
  }

  /** The planned queries ask each owning store, once, for exactly the
      requested keys it declares. */
  lemma PlanQueries(reg: Registry, keys: seq<Key>)
    ensures DistinctStores(QueriesOf(PlanFor(reg, keys)))
    ensures AsksOwnedKeys(reg, keys, QueriesOf(PlanFor(reg, keys)))
    ensures CoversOwners(reg, keys, QueriesOf(PlanFor(reg, keys)))
  {
    PlanDistinct(PlanFor(reg, keys));
    PlanAsks(reg, keys, PlanFor(reg, keys));
    PlanCovers(reg, keys, PlanFor(reg, keys));
  }

  lemma PlanDistinct(p: Plan)
    requires PlanOk(p)
    ensures DistinctStores(QueriesOf(p))
  {
  }

  lemma PlanAsks(reg: Registry, keys: seq<Key>, p: Plan)
    requires forall m, k :: k in AsksOf(p, m) <==> k in keys && OwnerNamed(reg, k, m)
    ensures AsksOwnedKeys(reg, keys, QueriesOf(p))
  {
    var queries := QueriesOf(p);
    forall i, k | 0 <= i < |queries|
      ensures k in queries[i].keys <==> k in keys && OwnerNamed(reg, k, queries[i].store)
    {
      assert queries[i].keys == AsksOf(p, queries[i].store);
    }
  }

  lemma PlanCovers(reg: Registry, keys: seq<Key>, p: Plan)
    requires PlanOk(p)
    requires forall m, k :: k in AsksOf(p, m) <==> k in keys && OwnerNamed(reg, k, m)
    ensures CoversOwners(reg, keys, QueriesOf(p))
  {
    var queries := QueriesOf(p);
    forall k, n | k in keys && OwnerNamed(reg, k, n)
      ensures exists i :: 0 <= i < |queries| && queries[i].store == n
    {
      assert k in AsksOf(p, n);
      assert n in p.order;
      var i :| 0 <= i < |p.order| && p.order[i] == n;
      assert queries[i].store == n;
    }
  }

  function Call(ask: Ask, q: Query): Result<map<Key, Entry>, string> {
    ask(q.store, q.keys)
  }

  function Gathered(results: map<Key, seq<Entry>>, k: Key): seq<Entry> {
    if k in results then results[k] else []
  }

  /** `_.each(data, ...)`: every entry a store returned is pushed onto the
      list of its key. */
  function Collect(acc: map<Key, seq<Entry>>, data: map<Key, Entry>): (r: map<Key, seq<Entry>>)
    ensures forall k :: k in r <==> k in acc || k in data
    ensures forall k :: Gathered(r, k) == Gathered(acc, k) + (if k in data then [data[k]] else [])
  {
    map k | k in acc.Keys + data.Keys :: Gathered(acc, k) + (if k in data then [data[k]] else [])
  }

  /** `async.forEach` over the queries, taken one at a time: the first query
      that fails decides the error, and otherwise every returned entry ends up
      in the list of its key. */
  function Gather(queries: seq<Query>, ask: Ask, acc: map<Key, seq<Entry>>): (r: Result<map<Key, seq<Entry>>, Error>)
    ensures r.Failure? <==> exists i :: 0 <= i < |queries| && Call(ask, queries[i]).Failure?
    ensures r.Failure? ==> exists i :: && 0 <= i < |queries|
                                       && Call(ask, queries[i]).Failure?
                                       && r.error == StoreFailed(Call(ask, queries[i]).error)
                                       && forall j :: 0 <= j < i ==> Call(ask, queries[j]).Success?
    decreases |queries|
  {
    if |queries| == 0 then Success(acc)
    else
      match Call(ask, queries[0])
      case Failure(reason) => Failure(StoreFailed(reason))
      case Success(data) =>
        var r := Gather(queries[1..], ask, Collect(acc, data));
        assert forall i :: 1 <= i < |queries| ==> queries[i] == queries[1..][i - 1];
        r
  }

  /** When no query fails, the gathered lists hold exactly the entries the
      stores returned, each under its own key. */
  lemma {:induction false} GatherContents(queries: seq<Query>, ask: Ask, acc: map<Key, seq<Entry>>)
    requires Gather(queries, ask, acc).Success?
    ensures var r := Gather(queries, ask, acc).value;
            && (forall k :: k in r <==> k in acc || Returned(ask, queries, k))
            && (forall k, e :: e in Gathered(r, k) <==> e in Gathered(acc, k) || ReturnedEntry(ask, queries, k, e))
    decreases |queries|
  {
    if |queries| > 0 {
      var data := Call(ask, queries[0]).value;
      var next := Collect(acc, data);
      GatherContents(queries[1..], ask, next);
      var r := Gather(queries, ask, acc).value;
      assert r == Gather(queries[1..], ask, next).value;
      forall k
        ensures k in r <==> k in acc || Returned(ask, queries, k)
      {
        if Returned(ask, queries[1..], k) {
          var i :| 0 <= i < |queries[1..]| && Call(ask, queries[1..][i]).Success? && k in Call(ask, queries[1..][i]).value;
          assert queries[1..][i] == queries[i + 1];
        }
        if Returned(ask, queries, k) {
          var i :| 0 <= i < |queries| && Call(ask, queries[i]).Success? && k in Call(ask, queries[i]).value;
          if i > 0 {
            assert queries[1..][i - 1] == queries[i];
          }
        }
      }
      forall k, e
        ensures e in Gathered(r, k) <==> e in Gathered(acc, k) || ReturnedEntry(ask, queries, k, e)
      {
        if ReturnedEntry(ask, queries[1..], k, e) {
          var i :| && 0 <= i < |queries[1..]| && Call(ask, queries[1..][i]).Success?
                   && k in Call(ask, queries[1..][i]).value && Call(ask, queries[1..][i]).value[k] == e;
          assert queries[1..][i] == queries[i + 1];
        }
        if ReturnedEntry(ask, queries, k, e) {
          var i :| && 0 <= i < |queries| && Call(ask, queries[i]).Success?
                   && k in Call(ask, queries[i]).value && Call(ask, queries[i]).value[k] == e;
          if i > 0 {
            assert queries[1..][i - 1] == queries[i];
          }
        }
      }
    }
  }

  /** Some query's answer contains the key `k`. */
  predicate Returned(ask: Ask, queries: seq<Query>, k: Key) {
    exists i :: 0 <= i < |queries| && Call(ask, queries[i]).Success? && k in Call(ask, queries[i]).value
  }

  /** Some query's answer holds `e` for the key `k`. */
  predicate ReturnedEntry(ask: Ask, queries: seq<Query>, k: Key, e: Entry) {
    exists i :: && 0 <= i < |queries| && Call(ask, queries[i]).Success?
                && k in Call(ask, queries[i]).value && Call(ask, queries[i]).value[k] == e
  }

  /** The keys whose entries are all absent. */
  function UnresolvedKeys(results: map<Key, seq<Entry>>): set<Key> {
    set k | k in results && MergeValues(results[k]).None?
  }

  /** Some key has no entry at all. */
  predicate HasUnresolved(results: map<Key, seq<Entry>>) {
    exists k :: k in results && MergeValues(results[k]).None?
  }

  /** Each key's merged value, when every key has one. */
  function MergedValues(results: map<Key, seq<Entry>>): (m: map<Key, bool>)
    requires !HasUnresolved(results)
    ensures m.Keys == results.Keys
    ensures forall k :: k in results ==> MergeValues(results[k]) == Some(Contribution(m[k], MergeValues(results[k]).value.force))
  {
    map k | k in results :: MergeValues(results[k]).value.value
  }

  /** The final merge, as the `errors` branch intends it: keys with no entry
      at all fail the whole call and are named; otherwise each key gets the
      value of its merge. */
  function Finish(results: map<Key, seq<Entry>>, req: Request): (r: Result<Answer, Error>)
    ensures r.Failure? <==> exists k :: k in results && MergeValues(results[k]).None?
    ensures r.Failure? ==> r.error == Unresolved(UnresolvedKeys(results))
    ensures r.Success? ==> (r.value.Scalar? <==> req.Single?)
    ensures r.Success? && req.Batch? ==>
              && r.value.values.Keys == results.Keys
              && forall k :: k in results ==> MergeValues(results[k]) == Some(Contribution(r.value.values[k], MergeValues(results[k]).value.force))
    ensures r.Success? && req.Single? ==>
              r.value == Scalar(if req.key in results then Some(MergeValues(results[req.key]).value.value) else None)
  {
    if HasUnresolved(results) then Failure(Unresolved(UnresolvedKeys(results)))
    else
      var merged := MergedValues(results);
      match req
      case Single(k) => Success(Scalar(if k in merged then Some(merged[k]) else None))
      case Batch(_) => Success(Values(merged))
  }

  /** `get(keys, params, options, callback)`. */
  function Get(reg: Registry, req: Request, ask: Ask): (r: Resolution)
    ensures LastUnknownKey(reg, req.Keys()).Some? ==>
              && r.queries == []
              && r.result == Failure(UnknownKey(LastUnknownKey(reg, req.Keys()).value))
    ensures LastUnknownKey(reg, req.Keys()).None? ==>
              && DistinctStores(r.queries)
              && AsksOwnedKeys(reg, req.Keys(), r.queries)
              && CoversOwners(reg, req.Keys(), r.queries)
    ensures LastUnknownKey(reg, req.Keys()).None? ==> r.queries == QueriesOf(PlanFor(reg, req.Keys()))
    ensures r.result.Failure? && r.result.error.StoreFailed? ==>
              exists i :: 0 <= i < |r.queries| && Call(ask, r.queries[i]) == Failure(r.result.error.reason)
    ensures r.result.Success? ==> (r.result.value.Scalar? <==> req.Single?)
    ensures LastUnknownKey(reg, req.Keys()).None? ==>
              if exists i :: 0 <= i < |r.queries| && Call(ask, r.queries[i]).Failure?
              then r.result.Failure? && r.result.error.StoreFailed?
              else r.result == Finish(Gather(r.queries, ask, map[]).value, req)
  {
    var keys := req.Keys();
    match LastUnknownKey(reg, keys)
    case Some(k) => Resolution([], Failure(UnknownKey(k)))
    case None =>
      var p := PlanFor(reg, keys);
      var queries := QueriesOf(p);
      PlanQueries(reg, keys);
      match Gather(queries, ask, map[])
      case Failure(e) => Resolution(queries, Failure(e))
      case Success(results) => Resolution(queries, Finish(results, req))
  }

  /** The keys of the request that the store named `n` declares, in request
      order. */
  function OwnedKeys(reg: Registry, keys: seq<Key>, n: Name): seq<Key> {
    if |keys| == 0 then []
    else
      var last := keys[|keys| - 1];
      OwnedKeys(reg, keys[..|keys| - 1], n) + (if n in reg.stores && last in reg.stores[n].keys then [last] else [])
  }

  /** In a registry where no store declares a key twice, each store is asked
      for exactly the requested keys it owns, in request order. */
  lemma {:induction false} AsksInRequestOrder(reg: Registry, keys: seq<Key>, n: Name)
    requires Valid(reg) && IndexDistinct(reg)
    ensures AsksOf(PlanFor(reg, keys), n) == OwnedKeys(reg, keys, n)
  {
    if |keys| > 0 {
      var last := keys[|keys| - 1];
      AsksInRequestOrder(reg, keys[..|keys| - 1], n);
      OwnerCount(reg, last, n);
    }
  }

  lemma OwnerCount(reg: Registry, k: Key, n: Name)
    requires Valid(reg) && IndexDistinct(reg)
    ensures NameCount(GetStoresForKey(reg, k), n) == if n in reg.stores && k in reg.stores[n].keys then 1 else 0
  {
    var list := GetStoresForKey(reg, k);
    if n in reg.stores {
      var t := reg.stores[n];
      if k in reg.index {
        CountDistinct(list, n, t);
      }
    } else if k in reg.index {
      assert forall i :: 0 <= i < |list| ==> list[i].name in reg.stores;
    }
  }

  lemma {:induction false} CountDistinct(list: seq<Store>, n: Name, t: Store)
    requires t.name == n
    requires forall i, j :: 0 <= i < j < |list| ==> list[i] != list[j]
    requires forall i :: 0 <= i < |list| && list[i].name == n ==> list[i] == t
    ensures NameCount(list, n) == if t in list then 1 else 0
  {
    if |list| > 0 {
      var rest := list[1..];
      assert forall i :: 0 <= i < |rest| ==> rest[i] == list[i + 1];
      CountDistinct(rest, n, t);
      assert t in list <==> list[0] == t || t in rest;
      if list[0] == t {
        assert t !in rest;
      }
    }
  }

  /** A store `get` that answers each key on its own, never fails, and
      returns exactly the keys asked of it. */
  function Honest(answer: (Name, Key) -> Entry): Ask {
    (n: Name, ks: seq<Key>) => Success(map k | k in ks :: answer(n, k))
  }

  /** What the stores declaring `k` say about it, in registration order. */
  function Contributions(reg: Registry, answer: (Name, Key) -> Entry, k: Key): (cs: seq<Entry>)
    ensures |cs| == |GetStoresForKey(reg, k)|
    ensures forall i :: 0 <= i < |cs| ==> cs[i] == answer(GetStoresForKey(reg, k)[i].name, k)
  {
    var stores := GetStoresForKey(reg, k);
    seq(|stores|, i requires 0 <= i < |stores| => answer(stores[i].name, k))
  }

  /** The reference resolution: no plan and no store round trip, just the
      contributions of each requested key's owners, merged key by key. */
  function ResolveEach(reg: Registry, answer: (Name, Key) -> Entry, req: Request): Result<Answer, Error> {
    Finish(map k | k in req.Keys() :: Contributions(reg, answer, k), req)
  }

  /** With stores that answer key by key, `get` of known keys resolves each
      key exactly as merging its owners' answers would, and fails, naming
      them, precisely for the keys nobody has an opinion on. */
  lemma GetResolvesEachKey(reg: Registry, req: Request, answer: (Name, Key) -> Entry)
    requires LastUnknownKey(reg, req.Keys()).None?
    ensures Get(reg, req, Honest(answer)).result == ResolveEach(reg, answer, req)
  {
    var keys := req.Keys();
    var ask := Honest(answer);
    var queries := QueriesOf(PlanFor(reg, keys));
    PlanQueries(reg, keys);
    forall i | 0 <= i < |queries|
      ensures Call(ask, queries[i]).Success?
    {
      HonestCall(answer, queries[i]);
    }
    var gathered := Gather(queries, ask, map[]);
    assert gathered.Success?;
    GatherContents(queries, ask, map[]);
    var results := gathered.value;
    assert Get(reg, req, ask).result == Finish(results, req);
    HonestResults(reg, keys, answer, queries, results);
    FinishAgrees(reg, answer, req, results);
  }

  /** What honest stores return for the planned queries: exactly the
      requested keys, each with a list merging like its owners' answers. */
  lemma HonestResults(reg: Registry, keys: seq<Key>, answer: (Name, Key) -> Entry,
                      queries: seq<Query>, results: map<Key, seq<Entry>>)
    requires LastUnknownKey(reg, keys).None?
    requires AsksOwnedKeys(reg, keys, queries) && CoversOwners(reg, keys, queries)
    requires forall k :: k in results <==> Returned(Honest(answer), queries, k)
    requires forall k, e :: e in Gathered(results, k) <==> ReturnedEntry(Honest(answer), queries, k, e)
    ensures forall k :: k in results <==> k in keys
    ensures forall k :: k in results ==> MergeValues(results[k]) == MergeValues(Contributions(reg, answer, k))
  {
    var ask := Honest(answer);
    forall k | k in keys
      ensures k in results
      ensures MergeValues(results[k]) == MergeValues(Contributions(reg, answer, k))
    {
      HonestGathered(reg, keys, answer, queries, results, k);
      MergeSameElements(results[k], Contributions(reg, answer, k));
    }
    forall k | k in results
      ensures k in keys
    {
      var i :| 0 <= i < |queries| && Call(ask, queries[i]).Success? && k in Call(ask, queries[i]).value;
      HonestCall(answer, queries[i]);
      assert k in queries[i].keys <==> k in keys && OwnerNamed(reg, k, queries[i].store);
    }
  }

  /** `Finish` looks at each key's list only through its merge. */
  lemma FinishAgrees(reg: Registry, answer: (Name, Key) -> Entry, req: Request, results: map<Key, seq<Entry>>)
    requires forall k :: k in results <==> k in req.Keys()
    requires forall k :: k in results ==> MergeValues(results[k]) == MergeValues(Contributions(reg, answer, k))
    ensures Finish(results, req) == ResolveEach(reg, answer, req)
  {
    var other := map k | k in req.Keys() :: Contributions(reg, answer, k);
    FinishSameMerges(results, other, req);
  }

  lemma FinishSameMerges(a: map<Key, seq<Entry>>, b: map<Key, seq<Entry>>, req: Request)
    requires a.Keys == b.Keys
    requires forall k :: k in a ==> MergeValues(a[k]) == MergeValues(b[k])
    ensures Finish(a, req) == Finish(b, req)
  {
    assert UnresolvedKeys(a) == UnresolvedKeys(b);
    assert HasUnresolved(a) <==> HasUnresolved(b);
    if !HasUnresolved(a) {
      assert MergedValues(a) == MergedValues(b);
    }
  }

  lemma HonestCall(answer: (Name, Key) -> Entry, q: Query)
    ensures Call(Honest(answer), q).Success?
    ensures forall k :: k in Call(Honest(answer), q).value <==> k in q.keys
    ensures forall k :: k in q.keys ==> Call(Honest(answer), q).value[k] == answer(q.store, k)
  {
  }

  lemma HonestGathered(reg: Registry, keys: seq<Key>, answer: (Name, Key) -> Entry,
                       queries: seq<Query>, results: map<Key, seq<Entry>>, k: Key)
    requires LastUnknownKey(reg, keys).None? && k in keys
    requires AsksOwnedKeys(reg, keys, queries) && CoversOwners(reg, keys, queries)
    requires k in results <==> Returned(Honest(answer), queries, k)
    requires forall e :: e in Gathered(results, k) <==> ReturnedEntry(Honest(answer), queries, k, e)
    ensures k in results
    ensures forall e :: e in results[k] <==> e in Contributions(reg, answer, k)
  {
    var ask := Honest(answer);
    var stores := GetStoresForKey(reg, k);
    var idx :| 0 <= idx < |keys| && keys[idx] == k;
    assert Known(reg, keys[idx]);
    assert OwnerNamed(reg, k, stores[0].name);
    var i0 :| 0 <= i0 < |queries| && queries[i0].store == stores[0].name;
    HonestCall(answer, queries[i0]);
    assert k in queries[i0].keys;
    assert Returned(ask, queries, k);
    forall e
      ensures e in results[k] <==> e in Contributions(reg, answer, k)
    {
      assert e in results[k] <==> ReturnedEntry(ask, queries, k, e);
      if ReturnedEntry(ask, queries, k, e) {
        ReturnedIsContribution(reg, keys, answer, queries, k, e);
      }
      if e in Contributions(reg, answer, k) {
        ContributionIsReturned(reg, keys, answer, queries, k, e);
      }
    }
  }

  lemma ReturnedIsContribution(reg: Registry, keys: seq<Key>, answer: (Name, Key) -> Entry,
                               queries: seq<Query>, k: Key, e: Entry)
    requires AsksOwnedKeys(reg, keys, queries)
    requires ReturnedEntry(Honest(answer), queries, k, e)
    ensures e in Contributions(reg, answer, k)
  {
    var ask := Honest(answer);
    var i :| && 0 <= i < |queries| && Call(ask, queries[i]).Success?
             && k in Call(ask, queries[i]).value && Call(ask, queries[i]).value[k] == e;
    HonestCall(answer, queries[i]);
    assert k in queries[i].keys;
    assert k in queries[i].keys <==> k in keys && OwnerNamed(reg, k, queries[i].store);
    var stores := GetStoresForKey(reg, k);
    var j :| 0 <= j < |stores| && stores[j].name == queries[i].store;
    assert Contributions(reg, answer, k)[j] == e;
  }

  lemma ContributionIsReturned(reg: Registry, keys: seq<Key>, answer: (Name, Key) -> Entry,
                               queries: seq<Query>, k: Key, e: Entry)
    requires AsksOwnedKeys(reg, keys, queries) && CoversOwners(reg, keys, queries)
    requires k in keys && e in Contributions(reg, answer, k)
    ensures ReturnedEntry(Honest(answer), queries, k, e)
  {
    var cs := Contributions(reg, answer, k);
    var stores := GetStoresForKey(reg, k);
    var j :| 0 <= j < |cs| && cs[j] == e;
    assert OwnerNamed(reg, k, stores[j].name);
    var i :| 0 <= i < |queries| && queries[i].store == stores[j].name;
    assert k in queries[i].keys;
    HonestCall(answer, queries[i]);
  }

  /** A batch and the single-key calls for its keys agree. */
  lemma BatchAgreesWithSingle(reg: Registry, keys: seq<Key>, answer: (Name, Key) -> Entry, k: Key)
    requires LastUnknownKey(reg, keys).None? && k in keys
    requires Get(reg, Batch(keys), Honest(answer)).result.Success?
    ensures k in Get(reg, Batch(keys), Honest(answer)).result.value.values
    ensures Get(reg, Single(k), Honest(answer)).result
            == Success(Scalar(Some(Get(reg, Batch(keys), Honest(answer)).result.value.values[k])))
  {
    GetResolvesEachKey(reg, Batch(keys), answer);
    var contributions := map x | x in keys :: Contributions(reg, answer, x);
    var values := Finish(contributions, Batch(keys)).value.values;
    assert k in contributions;
    var c := Contribution(values[k], MergeValues(contributions[k]).value.force);
    assert MergeValues(Contributions(reg, answer, k)) == Some(c);
    var i :| 0 <= i < |keys| && keys[i] == k;
    assert Known(reg, keys[i]);
    SingleResolves(reg, k, answer, c);
  }

  /** The callback of `async.forEach` as written: line 182 reads `.value` off
      the merge, which throws when the merge is `null`, so the `errors` branch
      below it can never run. */
  datatype Completion = Completed(result: Result<Answer, Error>) | Threw

  function FinishAsWritten(results: map<Key, seq<Entry>>, req: Request): (c: Completion)
    ensures c.Threw? <==> exists k :: k in results && MergeValues(results[k]).None?
    ensures c.Completed? ==> c.result.Success?
  {
    if exists k :: k in results && MergeValues(results[k]).None? then Threw
    else Completed(Finish(results, req))
  }

  /** The code as written and the intended finish differ exactly when some key
      is unresolved: the written one throws where the intended one reports an
      `Unresolved` error; for the single entry `x: [null]` that is visible. */
  lemma UnresolvedKeyThrowsAsWritten(results: map<Key, seq<Entry>>, req: Request)
    ensures FinishAsWritten(results, req) == Completed(Finish(results, req)) <==> Finish(results, req).Success?
    ensures FinishAsWritten(map["x" := [None]], Single("x")) == Threw
    ensures Finish(map["x" := [None]], Single("x")) == Failure(Unresolved({"x"}))
  {
    var ex: map<Key, seq<Entry>> := map["x" := [None]];
    assert MergeValues(ex["x"]).None?;
    assert UnresolvedKeys(ex) == {"x"};
  }

  /** `set(storeName, values, params, callback)` resolved to the call it makes. */
  datatype Delegation<V, P> = Delegation(store: Store, values: V, params: P)

  /** `set`: an unregistered name is an "Unknown store" error and calls no
      store; a registered one receives `values` and `params` untouched. */
  function Set<V, P>(reg: Registry, name: Name, values: V, params: P): (r: Result<Delegation<V, P>, Error>)
    ensures r.Failure? <==> GetStore(reg, name).None?
    ensures r.Failure? ==> r.error == UnknownStore(name)
    ensures r.Success? ==> Some(r.value.store) == GetStore(reg, name) && r.value.values == values && r.value.params == params
  {
    match GetStore(reg, name)
    case None => Failure(UnknownStore(name))
    case Some(s) => Success(Delegation(s, values, params))
  }

  /** `set` on a store registered by `addStore` reaches that very store. */
  lemma SetAfterAddStore<V, P>(reg: Registry, name: Name, keys: seq<Key>, values: V, params: P)
    requires name !in reg.stores
    ensures Set(AddStore(reg, name, keys).after, name, values, params)
            == Success(Delegation(Store(name, keys), values, params))
  {
    AddStoreThenGetStore(reg, name, keys, name);
  }

  /** Store `a` grants `x` regularly and has no opinion on `y`; store `b`
      revokes `x` by force and grants `y` regularly. */
  function ScenarioAnswer(n: Name, k: Key): Entry {
    if n == "a" then (if k == "x" then Some(Contribution(true, false)) else None)
    else if k == "x" then Some(Contribution(false, true))
    else Some(Contribution(true, false))
  }

  function ScenarioRegistry(): Registry {
    AddStore(AddStore(Empty, "a", ["x", "y"]).after, "b", ["x", "y"]).after
  }

  /** The index of the scenario: both stores own `x` and `y`, `a` first, and
      nobody owns `z`. */
  predicate ScenarioShape(reg: Registry) {
    && GetStoresForKey(reg, "x") == [Store("a", ["x", "y"]), Store("b", ["x", "y"])]
    && GetStoresForKey(reg, "y") == [Store("a", ["x", "y"]), Store("b", ["x", "y"])]
    && GetStoresForKey(reg, "z") == []
  }

  /** Registering a store that declares `x` and `y` appends it to both lists. */
  lemma AddScenarioStore(reg: Registry, name: Name, keys: seq<Key>, before: seq<Store>)
    requires name !in reg.stores && keys == ["x", "y"]
    requires GetStoresForKey(reg, "x") == before && GetStoresForKey(reg, "y") == before
    requires GetStoresForKey(reg, "z") == []
    ensures var after := AddStore(reg, name, keys).after;
            && GetStoresForKey(after, "x") == before + [Store(name, keys)]
            && GetStoresForKey(after, "y") == before + [Store(name, keys)]
            && GetStoresForKey(after, "z") == []
            && name in after.stores
  {
    assert DistinctKeys(keys);
    AddStoreAppends(reg, name, keys, "x");
    AddStoreAppends(reg, name, keys, "y");
    AddStoreAppends(reg, name, keys, "z");
    AddStoreThenGetStore(reg, name, keys, name);
  }

  /** Adding `a` and then `b` builds the scenario's index. */
  lemma ScenarioIndex(keys: seq<Key>)
    requires keys == ["x", "y"]
    ensures ScenarioShape(AddStore(AddStore(Empty, "a", keys).after, "b", keys).after)
  {
    AddScenarioStore(Empty, "a", keys, []);
    var one := AddStore(Empty, "a", keys).after;
    assert "b" !in one.stores by {
      AddStoreThenGetStore(Empty, "a", keys, "b");
    }
    AddScenarioStore(one, "b", keys, [Store("a", keys)]);
  }

  lemma ScenarioRegistryShape()
    ensures ScenarioShape(ScenarioRegistry())
  {
    ScenarioIndex(["x", "y"]);
  }

  lemma ScenarioMerges(reg: Registry)
    requires ScenarioShape(reg)
    ensures MergeValues(Contributions(reg, ScenarioAnswer, "x")) == Some(Contribution(false, true))
    ensures MergeValues(Contributions(reg, ScenarioAnswer, "y")) == Some(Contribution(true, false))
  {
    var cx := Contributions(reg, ScenarioAnswer, "x");
    var cy := Contributions(reg, ScenarioAnswer, "y");
    assert cx == [Some(Contribution(true, false)), Some(Contribution(false, true))];
    assert cy == [None, Some(Contribution(true, false))];
    ForcedFalseWins(cx, 1);
    MergeRules(cy);
    assert Grants(cy[1]);
    assert forall i :: 0 <= i < |cy| ==> !IsForced(cy[i]);
  }

  /** A known key whose owners' answers merge to `c` resolves to `c.value`. */
  lemma SingleResolves(reg: Registry, k: Key, answer: (Name, Key) -> Entry, c: Contribution)
    requires Known(reg, k) && MergeValues(Contributions(reg, answer, k)) == Some(c)
    ensures Get(reg, Single(k), Honest(answer)).result == Success(Scalar(Some(c.value)))
  {
    assert LastUnknownKey(reg, [k]).None?;
    GetResolvesEachKey(reg, Single(k), answer);
    assert forall x :: x in [k] <==> x == k;
  }

  /** A batch of known keys whose merges all resolve gives the map of the
      merged values. */
  lemma BatchResolves(reg: Registry, keys: seq<Key>, answer: (Name, Key) -> Entry, m: map<Key, bool>)
    requires forall i :: 0 <= i < |keys| ==> Known(reg, keys[i])
    requires forall k :: k in m <==> k in keys
    requires forall k :: k in keys ==> MergeValues(Contributions(reg, answer, k)).Some?
    requires forall k :: k in keys ==> MergeValues(Contributions(reg, answer, k)).value.value == m[k]
    ensures Get(reg, Batch(keys), Honest(answer)).result == Success(Values(m))
  {
    assert LastUnknownKey(reg, keys).None?;
    GetResolvesEachKey(reg, Batch(keys), answer);
    ResolveEachBatch(reg, keys, answer, m);
  }

  lemma ResolveEachBatch(reg: Registry, keys: seq<Key>, answer: (Name, Key) -> Entry, m: map<Key, bool>)
    requires forall k :: k in m <==> k in keys
    requires forall k :: k in keys ==> MergeValues(Contributions(reg, answer, k)).Some?
    requires forall k :: k in keys ==> MergeValues(Contributions(reg, answer, k)).value.value == m[k]
    ensures ResolveEach(reg, answer, Batch(keys)) == Success(Values(m))
  {
    var contributions := map k | k in keys :: Contributions(reg, answer, k);
    MergedIs(contributions, m);
  }

  /** Every key merging to its value in `m` makes `m` the merged map. */
  lemma MergedIs(results: map<Key, seq<Entry>>, m: map<Key, bool>)
    requires forall k :: k in m <==> k in results
    requires forall k :: k in results ==> MergeValues(results[k]).Some? && MergeValues(results[k]).value.value == m[k]
    ensures !HasUnresolved(results) && MergedValues(results) == m
  {
  }

  /** End to end: the forced revocation of `x` by one store beats the regular
      grant of the other. */
  lemma ScenarioForcedRevocation(reg: Registry)
    requires ScenarioShape(reg)
    ensures Get(reg, Single("x"), Honest(ScenarioAnswer)).result == Success(Scalar(Some(false)))
  {
    ScenarioMerges(reg);
    SingleResolves(reg, "x", ScenarioAnswer, Contribution(false, true));
  }

  /** End to end: `y` is granted by the one store that has an opinion. */
  lemma ScenarioAbsentIgnored(reg: Registry)
    requires ScenarioShape(reg)
    ensures Get(reg, Single("y"), Honest(ScenarioAnswer)).result == Success(Scalar(Some(true)))
  {
    ScenarioMerges(reg);
    SingleResolves(reg, "y", ScenarioAnswer, Contribution(true, false));
  }

  /** End to end: the batch of both keys gives the single-key results. */
  lemma ScenarioBatch(reg: Registry, keys: seq<Key>)
    requires ScenarioShape(reg) && keys == ["x", "y"]
    ensures Get(reg, Batch(keys), Honest(ScenarioAnswer)).result == Success(Values(map["x" := false, "y" := true]))
  {
    ScenarioMerges(reg);
    var m := map["x" := false, "y" := true];
    assert forall k :: k in keys <==> k == "x" || k == "y";
    assert Known(reg, keys[0]) && Known(reg, keys[1]);
    BatchResolves(reg, keys, ScenarioAnswer, m);
  }

  /** End to end: one unknown key fails the batch before any store is asked. */
  lemma ScenarioUnknownKey(reg: Registry, keys: seq<Key>)
    requires ScenarioShape(reg) && keys == ["x", "z"]
    ensures Get(reg, Batch(keys), Honest(ScenarioAnswer)) == Resolution([], Failure(UnknownKey("z")))
  {
    assert Known(reg, keys[0]) && !Known(reg, keys[1]);
    assert keys[..1] == ["x"];
    assert LastUnknownKey(reg, keys) == Some("z");
  }

  /** The registry built by the two `addStore` calls answers `x` and `y` as
      the scenario lemmas above say. */
  lemma ScenarioEndToEnd()
    ensures Get(ScenarioRegistry(), Single("x"), Honest(ScenarioAnswer)).result == Success(Scalar(Some(false)))
    ensures Get(ScenarioRegistry(), Single("y"), Honest(ScenarioAnswer)).result == Success(Scalar(Some(true)))
  {
    var reg := ScenarioRegistry();
    ScenarioRegistryShape();
    ScenarioForcedRevocation(reg);
    ScenarioAbsentIgnored(reg);
  }
}

=== FILE: strings.dfy ===
/** JavaScript's `String#split` and `Array#join` with a one-character
    separator, the only string surgery the modelled code performs. */
module Strings {

  /** `s.split(sep)`: n separators give n + 1 pieces, some possibly empty,
      none containing the separator, and joining them back gives `s`. */
  function Split(s: string, sep: char): (parts: seq<string>)
    ensures |parts| == multiset(s)[sep] + 1
    ensures forall i :: 0 <= i < |parts| ==> sep !in parts[i]
    ensures Join(parts, sep) == s
    decreases |s|
  {
    if |s| == 0 then [""]
    else
      var rest := Split(s[1..], sep);
      PrependProps(s[0], s[1..], rest, sep);
      assert s == [s[0]] + s[1..];
      Prepend(s[0], rest, sep)
  }

  /** One more leading character: a separator starts a new empty piece,
      anything else extends the first piece. */
  function Prepend(c: char, rest: seq<string>, sep: char): seq<string>
    requires |rest| > 0
  {
    if c == sep then [""] + rest else [[c] + rest[0]] + rest[1..]
  }

  /** `Prepend` keeps the three properties of `Split`. */
  lemma PrependProps(c: char, t: string, rest: seq<string>, sep: char)
    requires |rest| == multiset(t)[sep] + 1
    requires forall i :: 0 <= i < |rest| ==> sep !in rest[i]
    requires Join(rest, sep) == t
    ensures |Prepend(c, rest, sep)| == multiset([c] + t)[sep] + 1
    ensures forall i :: 0 <= i < |Prepend(c, rest, sep)| ==> sep !in Prepend(c, rest, sep)[i]
    ensures Join(Prepend(c, rest, sep), sep) == [c] + t
  {
    assert multiset([c] + t) == multiset{c} + multiset(t);
    var r := Prepend(c, rest, sep);
    if c == sep {
      assert r[1..] == rest;
      assert forall i :: 1 <= i < |r| ==> r[i] == rest[i - 1];
    } else {
      assert forall i :: 1 <= i < |r| ==> r[i] == rest[i];
      JoinConsHead(r[0], rest[1..], sep);
      assert r[0][1..] == rest[0];
      assert [rest[0]] + rest[1..] == rest;
    }
  }

  /** `parts.join(sep)`. */
  function Join(parts: seq<string>, sep: char): string
  {
    if |parts| == 0 then ""
    else if |parts| == 1 then parts[0]
    else parts[0] + [sep] + Join(parts[1..], sep)
  }

  /** Splitting undoes joining when no piece holds the separator. */
  lemma {:induction false} SplitJoin(parts: seq<string>, sep: char)
    requires |parts| > 0
    requires forall i :: 0 <= i < |parts| ==> sep !in parts[i]
    ensures Split(Join(parts, sep), sep) == parts
    decreases |parts|, |parts[0]|
  {
    if |parts| == 1 {
      SplitPiece(parts[0], sep);
    } else if |parts[0]| == 0 {
      SplitJoin(parts[1..], sep);
      SplitEmptyHead(parts, sep);
    } else {
      var head := parts[0];
      var shorter := [head[1..]] + parts[1..];
      SplitJoin(shorter, sep);
      SplitLongerHead(parts, shorter, sep);
    }
  }

  lemma SplitEmptyHead(parts: seq<string>, sep: char)
    requires |parts| > 1 && parts[0] == ""
    requires Split(Join(parts[1..], sep), sep) == parts[1..]
    ensures Split(Join(parts, sep), sep) == parts
  {
    var tail := Join(parts[1..], sep);
    assert Join(parts, sep) == [sep] + tail;
    assert ([sep] + tail)[1..] == tail;
    assert parts == [""] + parts[1..];
  }

  lemma SplitLongerHead(parts: seq<string>, shorter: seq<string>, sep: char)
    requires |parts| > 1 && |parts[0]| > 0 && parts[0][0] != sep
    requires shorter == [parts[0][1..]] + parts[1..]
    requires Split(Join(shorter, sep), sep) == shorter
    ensures Split(Join(parts, sep), sep) == parts
  {
    var head := parts[0];
    var tail := parts[1..];
    var s := Join(parts, sep);
    assert parts == [head] + tail;
    JoinConsHead(head, tail, sep);
    var t := Join(shorter, sep);
    assert s == [head[0]] + t;
    assert s[0] == head[0];
    assert s[1..] == t;
    SplitUnfold(s, sep);
    assert Split(s, sep) == Prepend(head[0], shorter, sep);
    PrependLonger(head, tail, sep);
  }

  lemma PrependLonger(head: string, tail: seq<string>, sep: char)
    requires |head| > 0 && head[0] != sep
    ensures Prepend(head[0], [head[1..]] + tail, sep) == [head] + tail
  {
    var shorter := [head[1..]] + tail;
    assert shorter[0] == head[1..] && shorter[1..] == tail;
    assert [head[0]] + head[1..] == head;
  }

  lemma SplitUnfold(s: string, sep: char)
    requires |s| > 0
    ensures Split(s, sep) == Prepend(s[0], Split(s[1..], sep), sep)
  {
  }

  lemma JoinConsHead(head: string, tail: seq<string>, sep: char)
    requires |head| > 0
    ensures Join([head] + tail, sep) == [head[0]] + Join([head[1..]] + tail, sep)
  {
    if |tail| > 0 {
      assert ([head] + tail)[1..] == tail;
      assert ([head[1..]] + tail)[1..] == tail;
    }
  }

  /** A piece without the separator splits into itself. */
  lemma {:induction false} SplitPiece(s: string, sep: char)
    requires sep !in s
    ensures Split(s, sep) == [s]
    decreases |s|
  {
    if |s| > 0 {
      SplitPiece(s[1..], sep);
      assert s == [s[0]] + s[1..];
    }
  }

  /** Joining is injective on non-empty lists of separator-free pieces. */
  lemma JoinInjective(a: seq<string>, b: seq<string>, sep: char)
    requires |a| > 0 && |b| > 0
    requires forall i :: 0 <= i < |a| ==> sep !in a[i]
    requires forall i :: 0 <= i < |b| ==> sep !in b[i]
    ensures Join(a, sep) == Join(b, sep) <==> a == b
  {
    if Join(a, sep) == Join(b, sep) {
      SplitJoin(a, sep);
      SplitJoin(b, sep);
    }
  }

  /** Joining one more piece appends the separator and the piece. */
  lemma {:induction false} JoinSnoc(parts: seq<string>, x: string, sep: char)
    requires |parts| > 0
    ensures Join(parts + [x], sep) == Join(parts, sep) + [sep] + x
    decreases |parts|
  {
    if |parts| > 1 {
      assert (parts + [x])[1..] == parts[1..] + [x];
      JoinSnoc(parts[1..], x, sep);
    }
  }
}

=== FILE: toolbar.dfy ===
/** The editor toolbar of client/mdedit/mdedit.js: `compileToolbarConfig`
    turns a named toolbar of the `mdedit` configuration into a list of
    buttons ordered by priority, and `__initToolbar__` drops the buttons of
    disabled parser plugins, tidies the separators and binds the hotkeys. */
module Toolbar {
  import opened Wrappers

  /** A button description; an absent `command` is the empty string. */
  datatype Button = Button(priority: int, separator: bool, depend: Option<string>, command: string,
                           bindKeys: Option<seq<string>>)

  /** The fields a toolbar entry overrides; the rest come from the declared
      button. */
  datatype Patch = Patch(priority: Option<int>, separator: Option<bool>, depend: Option<string>,
                         command: Option<string>, bindKeys: Option<seq<string>>)

  /** A toolbar entry's value: falsy (the button is off), `true` (the declared
      button as is) or an object of overrides. */
  datatype Param = Off | On | Override(patch: Patch)

  /** `N.config.mdedit`: the declared buttons, and each toolbar as its
      entries in declaration order. */
  datatype Config = Config(buttons: map<string, Button>, toolbars: map<string, seq<(string, Param)>>)

  datatype ToolbarError = UndeclaredButton(name: string)

  /** Keys starting with `separator` (`separator1`, `separator2`, …) all
      stand for the declared `separator` button. */
  function ButtonName(key: string): (name: string)
    ensures name == "separator" <==> key == "separator" || (|key| >= 9 && key[..9] == "separator")
    ensures !(|key| >= 9 && key[..9] == "separator") ==> name == key
  {
    if |key| >= 9 && key[..9] == "separator" then "separator" else key
  }

  /** `_.defaults({}, params, declared)`: each field from the overrides when
      given, otherwise from the declared button. */
  function Defaults(p: Patch, base: Button): (b: Button)
    ensures p.priority.Some? ==> b.priority == p.priority.value
    ensures p.priority.None? ==> b.priority == base.priority
    ensures b.separator == (if p.separator.Some? then p.separator.value else base.separator)
    ensures b.depend == (if p.depend.Some? then p.depend else base.depend)
    ensures b.command == (if p.command.Some? then p.command.value else base.command)
    ensures b.bindKeys == (if p.bindKeys.Some? then p.bindKeys else base.bindKeys)
  {
    Button(
      if p.priority.Some? then p.priority.value else base.priority,
      if p.separator.Some? then p.separator.value else base.separator,
      if p.depend.Some? then p.depend else base.depend,
      if p.command.Some? then p.command.value else base.command,
      if p.bindKeys.Some? then p.bindKeys else base.bindKeys)
  }

  /** The `_.reduce` of `compileToolbarConfig`, before sorting: one button
      per entry that is not off, in declaration order. */
  function Collect(buttons: map<string, Button>, entries: seq<(string, Param)>): (r: Result<seq<Button>, ToolbarError>)
    ensures r.Failure? <==> exists i :: 0 <= i < |entries| && entries[i].1 != Off && ButtonName(entries[i].0) !in buttons
    ensures r.Success? ==> |r.value| == |OnEntries(entries)|
    decreases |entries|
  {
    if |entries| == 0 then Success([])
    else
      var last := entries[|entries| - 1];
      var front := entries[..|entries| - 1];
      var before := Collect(buttons, front);
      assert forall i :: 0 <= i < |front| ==> front[i] == entries[i];
      if before.Failure? then before
      else if last.1 == Off then before
      else if ButtonName(last.0) !in buttons then Failure(UndeclaredButton(ButtonName(last.0)))
      else
        var declared := buttons[ButtonName(last.0)];
        Success(before.value + [if last.1 == On then declared else Defaults(last.1.patch, declared)])
  }

  /** The entries that are switched on, in order. */
  function OnEntries(entries: seq<(string, Param)>): seq<(string, Param)>
    decreases |entries|
  {
    if |entries| == 0 then []
    else OnEntries(entries[..|entries| - 1]) + (if entries[|entries| - 1].1 == Off then [] else [entries[|entries| - 1]])
  }

  /** The button an entry that is switched on stands for. */
  function Resolve(buttons: map<string, Button>, entry: (string, Param)): Button
    requires ButtonName(entry.0) in buttons
  {
    var declared := buttons[ButtonName(entry.0)];
    match entry.1
    case Override(p) => Defaults(p, declared)
    case _ => declared
  }

  /** Button `i` of the collected list is the `i`-th entry that is on, with
      its overrides applied over the declared button. */
  lemma {:induction false} CollectContents(buttons: map<string, Button>, entries: seq<(string, Param)>, i: nat)
    requires Collect(buttons, entries).Success? && i < |Collect(buttons, entries).value|
    ensures ButtonName(OnEntries(entries)[i].0) in buttons
    ensures Collect(buttons, entries).value[i] == Resolve(buttons, OnEntries(entries)[i])
    decreases |entries|
  {
    var front := entries[..|entries| - 1];
    var last := entries[|entries| - 1];
    if i < |OnEntries(front)| {
      CollectContents(buttons, front, i);
    } else {
      assert last.1 != Off;
      assert entries[|entries| - 1] == last;
    }
  }

  predicate Sorted(s: seq<Button>) {
    forall i, j :: 0 <= i < j < |s| ==> s[i].priority <= s[j].priority
  }

  /** The buttons of priority `p`, in order. */
  function WithPriority(s: seq<Button>, p: int): seq<Button>
    decreases |s|
  {
    if |s| == 0 then []
    else (if s[0].priority == p then [s[0]] else []) + WithPriority(s[1..], p)
  }

  /** Places `x` in front of the first button whose priority is not below
      its own. */
  function Insert(s: seq<Button>, x: Button): (r: seq<Button>)
    ensures Sorted(s) ==> Sorted(r)
    ensures multiset(r) == multiset(s) + multiset{x}
    ensures r[0] == x || (|s| > 0 && r[0] == s[0])
    decreases |s|
  {
    if |s| == 0 then [x]
    else if x.priority <= s[0].priority then
      InsertFront(x, s);
      [x] + s
    else
      assert s == [s[0]] + s[1..];
      var rest := Insert(s[1..], x);
      InsertBehind(s, x, rest);
      [s[0]] + rest
  }

  lemma InsertFront(x: Button, s: seq<Button>)
    requires |s| > 0 && x.priority <= s[0].priority
    ensures Sorted(s) ==> Sorted([x] + s)
  {
    if Sorted(s) {
      SortedCons(x, s);
    }
  }

  lemma InsertBehind(s: seq<Button>, x: Button, rest: seq<Button>)
    requires |s| > 0 && x.priority > s[0].priority
    requires |rest| > 0 && (rest[0] == x || (|s| > 1 && rest[0] == s[1]))
    requires Sorted(s[1..]) ==> Sorted(rest)
    ensures Sorted(s) ==> Sorted([s[0]] + rest)
  {
    if Sorted(s) {
      assert Sorted(s[1..]);
      SortedCons(s[0], rest);
    }
  }

  lemma SortedCons(h: Button, t: seq<Button>)
    requires Sorted(t)
    requires |t| > 0 ==> h.priority <= t[0].priority
    ensures Sorted([h] + t)
  {
    var r := [h] + t;
    forall i, j | 0 <= i < j < |r|
      ensures r[i].priority <= r[j].priority
    {
      if i == 0 && j > 1 {
        assert r[j] == t[j - 1];
        assert t[0].priority <= t[j - 1].priority;
      }
    }
  }

  /** Inserting puts `x` first among the buttons of its own priority and
      leaves the order of every priority's buttons otherwise alone. */
  lemma {:induction false} InsertStable(s: seq<Button>, x: Button, p: int)
    ensures WithPriority(Insert(s, x), p) == (if x.priority == p then [x] else []) + WithPriority(s, p)
    decreases |s|
  {
    var xs := if x.priority == p then [x] else [];
    if |s| == 0 {
      WithPriorityCons(x, [], p);
    } else if x.priority <= s[0].priority {
      assert Insert(s, x) == [x] + s;
      WithPriorityCons(x, s, p);
    } else {
      var rest := Insert(s[1..], x);
      InsertStable(s[1..], x, p);
      assert Insert(s, x) == [s[0]] + rest;
      assert s == [s[0]] + s[1..];
      StableStep(s[0], rest, s[1..], xs, p);
    }
  }

  /** A button in front of both sides of the induction hypothesis: when it
      and the inserted ones are not both of priority `p`, the order among
      priority `p` is unaffected. */
  lemma StableStep(h: Button, rest: seq<Button>, t: seq<Button>, xs: seq<Button>, p: int)
    requires WithPriority(rest, p) == xs + WithPriority(t, p)
    requires h.priority != p || xs == []
    ensures WithPriority([h] + rest, p) == xs + WithPriority([h] + t, p)
  {
    WithPriorityCons(h, rest, p);
    WithPriorityCons(h, t, p);
  }

  lemma WithPriorityCons(h: Button, t: seq<Button>, p: int)
    ensures WithPriority([h] + t, p) == (if h.priority == p then [h] else []) + WithPriority(t, p)
  {
    assert ([h] + t)[1..] == t;
  }

  /** `Array#sort` by `a.priority - b.priority`, which is stable: a sorted
      permutation in which buttons of equal priority keep their order. */
  function SortByPriority(s: seq<Button>): (r: seq<Button>)
    ensures Sorted(r)
    ensures multiset(r) == multiset(s)
    decreases |s|
  {
    if |s| == 0 then []
    else
      assert s == [s[0]] + s[1..];
      Insert(SortByPriority(s[1..]), s[0])
  }

  /** The sort is stable: for every priority, the buttons having it appear in
      the same order as before. */
  lemma {:induction false} SortStable(s: seq<Button>, p: int)
    ensures WithPriority(SortByPriority(s), p) == WithPriority(s, p)
    decreases |s|
  {
    if |s| > 0 {
      SortStable(s[1..], p);
      InsertStable(SortByPriority(s[1..]), s[0], p);
    }
  }

  /** `compileToolbarConfig(name)`: the named toolbar's buttons ordered by
      priority; an unknown toolbar has none. */
  function CompileToolbarConfig(config: Config, name: string): (r: Result<seq<Button>, ToolbarError>)
    ensures name !in config.toolbars ==> r == Success([])
    ensures name in config.toolbars ==> (r.Success? <==> Collect(config.buttons, config.toolbars[name]).Success?)
    ensures r.Success? ==> Sorted(r.value)
    ensures r.Success? && name in config.toolbars ==>
              multiset(r.value) == multiset(Collect(config.buttons, config.toolbars[name]).value)
  {
    if name !in config.toolbars then Success([])
    else
      var collected :- Collect(config.buttons, config.toolbars[name]);
      Success(SortByPriority(collected))
  }

  /** A button whose parser plugin is switched off (exactly `false`). */
  predicate Disabled(parseOptions: map<string, bool>, b: Button) {
    b.depend.Some? && b.depend.value in parseOptions && !parseOptions[b.depend.value]
  }

  /** No two separators in a row. */
  predicate NoAdjacentSeparators(s: seq<Button>) {
    forall i :: 0 <= i < |s| - 1 ==> !(s[i].separator && s[i + 1].separator)
  }

  /** The non-separators of a list, in order. */
  function Items(s: seq<Button>): seq<Button>
    decreases |s|
  {
    if |s| == 0 then [] else Items(s[..|s| - 1]) + (if s[|s| - 1].separator then [] else [s[|s| - 1]])
  }

  /** The non-separators whose plugin is not switched off, in order. */
  function EnabledItems(parseOptions: map<string, bool>, s: seq<Button>): seq<Button>
    decreases |s|
  {
    if |s| == 0 then []
    else
      var b := s[|s| - 1];
      EnabledItems(parseOptions, s[..|s| - 1]) + (if b.separator || Disabled(parseOptions, b) then [] else [b])
  }

  /** The buttons whose plugin is not switched off, separators included, in
      order. */
  function WithoutDisabled(parseOptions: map<string, bool>, s: seq<Button>): seq<Button>
    decreases |s|
  {
    if |s| == 0 then []
    else WithoutDisabled(parseOptions, s[..|s| - 1]) + (if Disabled(parseOptions, s[|s| - 1]) then [] else [s[|s| - 1]])
  }

  /** Entry `i` is a separator right after another separator. */
  predicate RepeatedSeparator(f: seq<Button>, i: int) {
    0 < i < |f| && f[i].separator && f[i - 1].separator
  }

  /** Every run of consecutive separators shortened to its first one; all
      other entries kept, in order. */
  function CollapseSeparators(f: seq<Button>): seq<Button>
    decreases |f|
  {
    if |f| == 0 then []
    else CollapseSeparators(f[..|f| - 1]) + (if RepeatedSeparator(f, |f| - 1) then [] else [f[|f| - 1]])
  }

  /** Collapsing keeps a list non-empty and keeps whether it ends in a
      separator. */
  lemma {:induction false} CollapseLast(f: seq<Button>)
    ensures |CollapseSeparators(f)| > 0 <==> |f| > 0
    ensures |f| > 0 ==> CollapseSeparators(f)[|CollapseSeparators(f)| - 1].separator == f[|f| - 1].separator
    decreases |f|
  {
    if |f| > 0 {
      CollapseLast(f[..|f| - 1]);
    }
  }

  /** The `_.reduce` of `__initToolbar__`: drops buttons of disabled plugins
      and a separator right after another one. What survives is the toolbar
      without its disabled buttons, with each run of separators shortened to
      its first separator. */
  function KeepEnabled(parseOptions: map<string, bool>, s: seq<Button>): (r: seq<Button>)
    ensures NoAdjacentSeparators(r)
    ensures Items(r) == EnabledItems(parseOptions, s)
    ensures forall b :: b in r ==> b in s && !Disabled(parseOptions, b)
    ensures r == CollapseSeparators(WithoutDisabled(parseOptions, s))
    decreases |s|
  {
    if |s| == 0 then []
    else
      var b := s[|s| - 1];
      var before := KeepEnabled(parseOptions, s[..|s| - 1]);
      KeepEnabledStep(parseOptions, s, before);
      CollapseProps(parseOptions, s);
      if Disabled(parseOptions, b) then before
      else if b.separator && |before| > 0 && before[|before| - 1].separator then before
      else
        assert (before + [b])[..|before|] == before;
        before + [b]
  }

  lemma KeepEnabledStep(parseOptions: map<string, bool>, s: seq<Button>, before: seq<Button>)
    requires |s| > 0 && before == CollapseSeparators(WithoutDisabled(parseOptions, s[..|s| - 1]))
    ensures Disabled(parseOptions, s[|s| - 1]) ==> CollapseSeparators(WithoutDisabled(parseOptions, s)) == before
    ensures !Disabled(parseOptions, s[|s| - 1]) ==>
              CollapseSeparators(WithoutDisabled(parseOptions, s))
              == before + (if s[|s| - 1].separator && |before| > 0 && before[|before| - 1].separator then [] else [s[|s| - 1]])
  {
    var b := s[|s| - 1];
    var f := WithoutDisabled(parseOptions, s[..|s| - 1]);
    assert WithoutDisabled(parseOptions, s) == f + (if Disabled(parseOptions, b) then [] else [b]);
    if !Disabled(parseOptions, b) {
      CollapseLast(f);
      CollapseSnoc(f, b);
    } else {
      assert f + [] == f;
    }
  }

  /** The reference result has no adjacent separators, keeps exactly the
      enabled buttons other than separators, and takes nothing disabled or
      foreign. */
  lemma CollapseProps(parseOptions: map<string, bool>, s: seq<Button>)
    ensures NoAdjacentSeparators(CollapseSeparators(WithoutDisabled(parseOptions, s)))
    ensures Items(CollapseSeparators(WithoutDisabled(parseOptions, s))) == EnabledItems(parseOptions, s)
    ensures forall b :: b in CollapseSeparators(WithoutDisabled(parseOptions, s)) ==> b in s && !Disabled(parseOptions, b)
  {
    CollapseNoAdjacent(parseOptions, s);
    CollapseItems(parseOptions, s);
    CollapseMembers(parseOptions, s);
  }

  /** Whether the step keeps the last button: it is enabled and not a
      separator following a kept separator. */
  predicate KeepsLast(parseOptions: map<string, bool>, before: seq<Button>, b: Button) {
    !Disabled(parseOptions, b) && !(b.separator && |before| > 0 && before[|before| - 1].separator)
  }

  lemma CollapseStep(parseOptions: map<string, bool>, s: seq<Button>)
    requires |s| > 0
    ensures CollapseSeparators(WithoutDisabled(parseOptions, s))
            == var before := CollapseSeparators(WithoutDisabled(parseOptions, s[..|s| - 1]));
               if KeepsLast(parseOptions, before, s[|s| - 1]) then before + [s[|s| - 1]] else before
  {
    KeepEnabledStep(parseOptions, s, CollapseSeparators(WithoutDisabled(parseOptions, s[..|s| - 1])));
  }

  lemma {:induction false} CollapseNoAdjacent(parseOptions: map<string, bool>, s: seq<Button>)
    ensures NoAdjacentSeparators(CollapseSeparators(WithoutDisabled(parseOptions, s)))
    decreases |s|
  {
    if |s| > 0 {
      var front := s[..|s| - 1];
      var b := s[|s| - 1];
      CollapseNoAdjacent(parseOptions, front);
      var before := CollapseSeparators(WithoutDisabled(parseOptions, front));
      CollapseStep(parseOptions, s);
      if KeepsLast(parseOptions, before, b) {
        NoAdjacentSnoc(before, b);
      }
    }
  }

  lemma NoAdjacentSnoc(r: seq<Button>, b: Button)
    requires NoAdjacentSeparators(r)
    requires !(b.separator && |r| > 0 && r[|r| - 1].separator)
    ensures NoAdjacentSeparators(r + [b])
  {
    var c := r + [b];
    forall i | 0 <= i < |c| - 1
      ensures !(c[i].separator && c[i + 1].separator)
    {
      if i + 1 < |r| {
        assert c[i] == r[i] && c[i + 1] == r[i + 1];
      }
    }
  }

  lemma {:induction false} CollapseItems(parseOptions: map<string, bool>, s: seq<Button>)
    ensures Items(CollapseSeparators(WithoutDisabled(parseOptions, s))) == EnabledItems(parseOptions, s)
    decreases |s|
  {
    if |s| > 0 {
      var front := s[..|s| - 1];
      var b := s[|s| - 1];
      CollapseItems(parseOptions, front);
      var before := CollapseSeparators(WithoutDisabled(parseOptions, front));
      CollapseStep(parseOptions, s);
      if KeepsLast(parseOptions, before, b) {
        ItemsSnoc(before, b);
      }
    }
  }

  lemma ItemsSnoc(r: seq<Button>, b: Button)
    ensures Items(r + [b]) == Items(r) + (if b.separator then [] else [b])
  {
    assert (r + [b])[..|r|] == r;
  }

  lemma {:induction false} CollapseMembers(parseOptions: map<string, bool>, s: seq<Button>)
    ensures forall b :: b in CollapseSeparators(WithoutDisabled(parseOptions, s)) ==> b in s && !Disabled(parseOptions, b)
    decreases |s|
  {
    if |s| > 0 {
      var front := s[..|s| - 1];
      CollapseMembers(parseOptions, front);
      CollapseStep(parseOptions, s);
      assert forall x :: x in front ==> x in s;
    }
  }

  lemma CollapseSnoc(f: seq<Button>, b: Button)
    ensures CollapseSeparators(f + [b])
            == CollapseSeparators(f) + (if |f| > 0 && b.separator && f[|f| - 1].separator then [] else [b])
  {
    var g := f + [b];
    assert g[..|f|] == f;
    assert RepeatedSeparator(g, |f|) <==> |f| > 0 && b.separator && f[|f| - 1].separator;
  }

  /** `r` is `s` less one leading separator when `lo` is 1, and less one
      trailing separator when it is shorter still. */
  predicate TrimmedAt(s: seq<Button>, r: seq<Button>, lo: int) {
    && 0 <= lo <= 1 && lo + |r| <= |s| <= lo + |r| + 1
    && r == s[lo..lo + |r|]
    && (lo == 1 ==> s[0].separator)
    && (lo + |r| < |s| ==> s[|s| - 1].separator)
  }

  /** Dropping one leading and then one trailing separator. */
  function Trim(s: seq<Button>): (r: seq<Button>)
    requires NoAdjacentSeparators(s)
    ensures NoAdjacentSeparators(r)
    ensures |r| > 0 ==> !r[0].separator && !r[|r| - 1].separator
    ensures Items(r) == Items(s)
    ensures forall b :: b in r ==> b in s
    ensures exists lo :: TrimmedAt(s, r, lo)
  {
    var lo := if |s| > 0 && s[0].separator then 1 else 0;
    var shifted := s[lo..];
    var popped := if |shifted| > 0 && shifted[|shifted| - 1].separator then shifted[..|shifted| - 1] else shifted;
    ItemsDropSeparator(s);
    ItemsPopSeparator(shifted);
    assert TrimmedAt(s, popped, lo);
    popped
  }

  lemma {:induction false} ItemsDropSeparator(s: seq<Button>)
    ensures |s| > 0 && s[0].separator ==> Items(s[1..]) == Items(s)
    decreases |s|
  {
    if |s| > 1 && s[0].separator {
      var front := s[..|s| - 1];
      ItemsDropSeparator(front);
      assert front[1..] == s[1..][..|s[1..]| - 1];
    }
  }

  lemma ItemsPopSeparator(s: seq<Button>)
    ensures |s| > 0 && s[|s| - 1].separator ==> Items(s[..|s| - 1]) == Items(s)
  {
  }

  /** The buttons shown: no separator at either end or twice in a row, and
      the other buttons exactly the enabled ones, in order. */
  function ShownButtons(parseOptions: map<string, bool>, toolbar: seq<Button>): (r: seq<Button>)
    ensures NoAdjacentSeparators(r)
    ensures |r| > 0 ==> !r[0].separator && !r[|r| - 1].separator
    ensures Items(r) == EnabledItems(parseOptions, toolbar)
    ensures forall b :: b in r ==> b in toolbar && !Disabled(parseOptions, b)
    ensures EnabledItems(parseOptions, toolbar) == [] ==> r == []
    ensures exists lo :: TrimmedAt(CollapseSeparators(WithoutDisabled(parseOptions, toolbar)), r, lo)
  {
    Trim(KeepEnabled(parseOptions, toolbar))
  }

  /** A separator between two shown buttons is shown. */
  lemma SeparatorBetweenShown(parseOptions: map<string, bool>, a: Button, sep: Button)
    requires !a.separator && !Disabled(parseOptions, a)
    requires sep.separator && !Disabled(parseOptions, sep)
    ensures ShownButtons(parseOptions, [a, sep, a]) == [a, sep, a]
  {
    var t := [a, sep, a];
    assert Reference(parseOptions, []) == [];
    assert [] + [a] == [a] && [a] + [sep] == [a, sep] && [a, sep] + [a] == t;
    ReferenceSnoc(parseOptions, [], a, []);
    assert KeepsLast(parseOptions, [a], sep);
    ReferenceSnoc(parseOptions, [a], sep, [a]);
    assert KeepsLast(parseOptions, [a, sep], a);
    ReferenceSnoc(parseOptions, [a, sep], a, [a, sep]);
    ShownIsReference(parseOptions, t);
  }

  /** Separators made adjacent by a hidden button merge into one. */
  lemma HiddenButtonMergesSeparators(parseOptions: map<string, bool>, a: Button, sep: Button, x: Button)
    requires !a.separator && !Disabled(parseOptions, a)
    requires sep.separator && !Disabled(parseOptions, sep)
    requires Disabled(parseOptions, x)
    ensures ShownButtons(parseOptions, [a, sep, x, sep, a]) == [a, sep, a]
  {
    var t := [a, sep, x, sep, a];
    HiddenButtonReference(parseOptions, a, sep, x);
    ShownIsReference(parseOptions, t);
  }

  lemma HiddenButtonReference(parseOptions: map<string, bool>, a: Button, sep: Button, x: Button)
    requires !a.separator && !Disabled(parseOptions, a)
    requires sep.separator && !Disabled(parseOptions, sep)
    requires Disabled(parseOptions, x)
    ensures Reference(parseOptions, [a, sep, x, sep, a]) == [a, sep, a]
  {
    assert Reference(parseOptions, []) == [];
    assert [] + [a] == [a] && [a] + [sep] == [a, sep];
    ReferenceSnoc(parseOptions, [], a, []);
    assert KeepsLast(parseOptions, [a], sep);
    ReferenceSnoc(parseOptions, [a], sep, [a]);
    HiddenButtonTail(parseOptions, a, sep, x);
  }

  lemma HiddenButtonTail(parseOptions: map<string, bool>, a: Button, sep: Button, x: Button)
    requires !a.separator && !Disabled(parseOptions, a)
    requires sep.separator && Disabled(parseOptions, x)
    requires Reference(parseOptions, [a, sep]) == [a, sep]
    ensures Reference(parseOptions, [a, sep, x, sep, a]) == [a, sep, a]
  {
    assert [a, sep] + [x] == [a, sep, x];
    assert [a, sep, x] + [sep] == [a, sep, x, sep] && [a, sep, x, sep] + [a] == [a, sep, x, sep, a];
    assert !KeepsLast(parseOptions, [a, sep], x);
    ReferenceSnoc(parseOptions, [a, sep], x, [a, sep]);
    assert !KeepsLast(parseOptions, [a, sep], sep);
    ReferenceSnoc(parseOptions, [a, sep, x], sep, [a, sep]);
    assert KeepsLast(parseOptions, [a, sep], a) && [a, sep] + [a] == [a, sep, a];
    ReferenceSnoc(parseOptions, [a, sep, x, sep], a, [a, sep]);
  }

  /** One more toolbar entry, in terms of the reference result so far. */
  lemma ReferenceSnoc(parseOptions: map<string, bool>, t: seq<Button>, b: Button, before: seq<Button>)
    requires Reference(parseOptions, t) == before
    ensures Reference(parseOptions, t + [b]) == if KeepsLast(parseOptions, before, b) then before + [b] else before
  {
    assert (t + [b])[..|t|] == t && (t + [b])[|t|] == b;
    CollapseStep(parseOptions, t + [b]);
  }

  /** When the reference result has no separator at either end, it is what
      is shown. */
  lemma ShownIsReference(parseOptions: map<string, bool>, t: seq<Button>)
    requires |Reference(parseOptions, t)| > 0
    requires !Reference(parseOptions, t)[0].separator
    requires !Reference(parseOptions, t)[|Reference(parseOptions, t)| - 1].separator
    ensures ShownButtons(parseOptions, t) == Reference(parseOptions, t)
  {
    TrimUntouched(KeepEnabled(parseOptions, t));
  }

  function Reference(parseOptions: map<string, bool>, t: seq<Button>): seq<Button> {
    CollapseSeparators(WithoutDisabled(parseOptions, t))
  }

  /** A list already without edge or repeated separators is shown as is. */
  lemma TrimUntouched(s: seq<Button>)
    requires NoAdjacentSeparators(s)
    requires |s| > 0 && !s[0].separator && !s[|s| - 1].separator
    ensures Trim(s) == s
  {
  }

  /** A button whose hotkeys are bound: it has a command, a key list, and the
      command is registered. */
  predicate Bindable(commands: set<string>, b: Button) {
    b.command != "" && b.bindKeys.Some? && b.command in commands
  }

  predicate Binds(commands: set<string>, b: Button, key: string) {
    Bindable(commands, b) && key in b.bindKeys.value
  }

  /** Button `i` is the last of `buttons` to bind `key`. */
  predicate LastBinder(commands: set<string>, buttons: seq<Button>, key: string, i: int) {
    0 <= i < |buttons| && Binds(commands, buttons[i], key) &&
    forall j :: i < j < |buttons| ==> !Binds(commands, buttons[j], key)
  }

  /** The hotkey map of `__initToolbar__`: the keys bound by some eligible
      button, each running the command of the last button that binds it. */
  function Hotkeys(commands: set<string>, buttons: seq<Button>): (r: map<string, string>)
    ensures forall k :: k in r <==> exists i :: 0 <= i < |buttons| && Binds(commands, buttons[i], k)
    ensures forall k :: k in r ==> exists i :: LastBinder(commands, buttons, k, i) && r[k] == buttons[i].command
    decreases |buttons|
  {
    if |buttons| == 0 then map[]
    else
      var b := buttons[|buttons| - 1];
      var front := buttons[..|buttons| - 1];
      var before := Hotkeys(commands, front);
      HotkeysStepKeys(commands, buttons, before, Bind(commands, b, before));
      HotkeysStepValues(commands, buttons, before, Bind(commands, b, before));
      Bind(commands, b, before)
  }

  /** One more button: the keys it binds now run its command; the others keep
      what the earlier buttons gave them. */
  function Bind(commands: set<string>, b: Button, before: map<string, string>): map<string, string> {
    if !Bindable(commands, b) then before
    else before + map k | k in b.bindKeys.value :: b.command
  }

  lemma HotkeysStepKeys(commands: set<string>, buttons: seq<Button>, before: map<string, string>, r: map<string, string>)
    requires |buttons| > 0 && r == Bind(commands, buttons[|buttons| - 1], before)
    requires forall k :: k in before <==> exists i :: 0 <= i < |buttons| - 1 && Binds(commands, buttons[i], k)
    ensures forall k :: k in r <==> exists i :: 0 <= i < |buttons| && Binds(commands, buttons[i], k)
  {
    var n := |buttons| - 1;
    var b := buttons[n];
    forall k
      ensures k in r <==> exists i :: 0 <= i < |buttons| && Binds(commands, buttons[i], k)
    {
      if k in r && !Binds(commands, b, k) {
        var i :| 0 <= i < n && Binds(commands, buttons[i], k);
      }
      if Binds(commands, b, k) {
        assert Binds(commands, buttons[n], k);
      }
    }
  }

  lemma HotkeysStepValues(commands: set<string>, buttons: seq<Button>, before: map<string, string>, r: map<string, string>)
    requires |buttons| > 0 && r == Bind(commands, buttons[|buttons| - 1], before)
    requires forall k :: k in before ==> exists i :: LastBinder(commands, buttons[..|buttons| - 1], k, i) && before[k] == buttons[i].command
    ensures forall k :: k in r ==> exists i :: LastBinder(commands, buttons, k, i) && r[k] == buttons[i].command
  {
    var n := |buttons| - 1;
    var b := buttons[n];
    var front := buttons[..n];
    forall k | k in r
      ensures exists i :: LastBinder(commands, buttons, k, i) && r[k] == buttons[i].command
    {
      if Binds(commands, b, k) {
        assert LastBinder(commands, buttons, k, n);
      } else {
        var i :| LastBinder(commands, front, k, i) && before[k] == buttons[i].command;
        assert LastBinder(commands, buttons, k, i);
      }
    }
  }

  /** What `__initToolbar__` leaves behind: the buttons rendered and the
      editor's `extraKeys`. */
  datatype Initialized = Initialized(shown: seq<Button>, hotkeys: map<string, string>)

  /** `__initToolbar__`: the shown buttons, and a hotkey for each key that a
      shown button with a registered command binds, running the command of
      the last such button. */
  function InitToolbar(parseOptions: map<string, bool>, commands: set<string>, toolbar: seq<Button>): (r: Initialized)
    ensures r.shown == ShownButtons(parseOptions, toolbar)
    ensures forall k :: k in r.hotkeys <==> exists i :: 0 <= i < |r.shown| && Binds(commands, r.shown[i], k)
    ensures forall k :: k in r.hotkeys ==>
              r.hotkeys[k] in commands && exists i :: LastBinder(commands, r.shown, k, i) && r.hotkeys[k] == r.shown[i].command
  {
    var shown := ShownButtons(parseOptions, toolbar);
    Initialized(shown, Hotkeys(commands, shown))
  }
}

=== FILE: wrappers.dfy ===
/** Option and Result, the value-level stand-ins for JavaScript's `null`
    results and for errors handed to callbacks or thrown. */
module Wrappers {

  datatype Option<+T> = None | Some(value: T)

  datatype Result<+T, +E> = Success(value: T) | Failure(error: E) {

    predicate IsFailure() {
      Failure?
    }

    function PropagateFailure<U>(): Result<U, E>
      requires Failure?
    {
      Failure(error)
    }

    function Extract(): T
      requires Success?
    {
      value
    }
  }
}
